=== FILE: README.md ===
# Mill management service layer, in Dafny

This project models the service layer of the mill-management back end. There are seven record kinds: purchases, sells, manufactures, ledgers, customers, sellers and buyers. Every service does the same things against a database table:
- looks a record up by id among the active ones;
- lists all active records;
- lists a filtered, sorted page of them together with the total count;
- creates a record;
- updates a record by merging the request over the stored record;
- removes a record by switching its `isActive` flag off.

Creating a sell or a manufacture checks that its purchase is live and that the new amount does not exceed the purchase's amount. Creating a ledger checks that its customer is live. An update checks only that the new parent is live: it does not re-check the amount. Removing a purchase or a customer leaves its sells, manufactures or ledgers pointing at an inactive row. A ledger's remainder is the previous balance less the deposit at create. An update keeps the stored remainder even when it changes an amount.

The model is functional: a table is a finite map from id to row, and a service call is a pure function from the tables to a `Result`.

Files and modules:
- **`store.dfy` (`Store`):** the table, the soft-delete state machine, and the selection of live rows along the database's scan order.
- **`listing.dfy` (`Listing`, with `ordering.dfy` and `text.dfy`):** the `pagination` procedure every service repeats. It normalises the sort direction and resolves the order column against a whitelist. It applies the lower-cased substring filters, sorts, and takes the window `skip((page - 1) * limit).take(limit)`.
- **Per-kind modules:** each instantiates the store and the listing with the kind's columns, whitelist and filters.
  - `contacts.dfy`, plus `customer.dfy`, `seller.dfy` and `buyer.dfy`: the three contact books, which share one record shape.
  - `purchase.dfy`, `sell.dfy`, `manufacture.dfy` and `ledger.dfy`.
- **`drawing.dfy` (`Drawing`):** the amount guard that sells and manufactures share.
- **`links.dfy` (`Links`):** the links from sells and manufactures to purchases, and from ledgers to customers.

Parameters stand in for what the database provides:
- **Generated values:** ids and timestamps are arguments.
- **Row order:** the order in which rows come back before sorting is an argument `scan`, which lists every id once.
- **Column order:** the database's ordering of column values is a fixed total order. NULL comes first, then amounts, then instants, then text by character code.
- **Amounts:** `decimal(20,6)` amounts are `real`.
- **Errors:** a failed lookup (`exceptionService.notFound`) is `NotFound(message)` with the service's own message. The amount guard's error is `ExceedingPurchase`. Ordering by a name that is not a property of the entity is `UnknownColumn`. A save that writes NULL into a NOT NULL column is `NotNullViolation`. This is the refusal MySQL gives in its default strict mode.

## Model

| member | source | states |
|---|---|---|
| Store.Get | src/customer/services/customer.service.ts:164-173 | A lookup succeeds exactly for a stored row whose flag is active and returns its stored columns. It fails with the service's not-found message otherwise. |
| Store.Add | src/customer/services/customer.service.ts:99-110 | Create adds exactly one new active row holding the submitted fields, stamped once, and leaves every other row as it was. Reading it back returns the submitted fields. |
| Store.Put | src/customer/services/customer.service.ts:118-128 | Saving a merged record replaces only that row's columns. The id, flag, stamps and all other rows are kept. |
| Store.SoftDelete | src/customer/services/customer.service.ts:137-149 | Remove succeeds exactly on a live row. It changes only that row's flag. Afterwards the lookup fails and the live ids are the old ones minus that id. |
| Store.Select | src/customer/services/customer.service.ts:45-69 | The WHERE clause: every selected row is live, accepted by the filter and exactly as stored. Every such row the scan visits is selected. |
| Store.CountSelected | src/customer/services/customer.service.ts:86 | A full scan selects as many rows as there are matching live ids: the count `getManyAndCount` reports. |
| Store.SelectDistinct | src/customer/services/customer.service.ts:86 | A selection never lists the same id twice. |
| Store.FindAll | src/customer/services/customer.service.ts:24-35 | findAll lists every live row, only live rows, each as stored, and exactly one entry per live id. |
| Store.SoftDeleteUnlists | src/customer/services/customer.service.ts:137-149 | After a remove, every listing's matches are the old matches minus the removed id. |
| Store.AddLists | src/customer/services/customer.service.ts:99-110 | After a create, a listing's matches grow by the new id exactly when its filter accepts the new record. |
| Store.PutRelists | src/customer/services/customer.service.ts:118-128 | After an update, the row stays live. A listing matches it exactly when its filter accepts the merged record. |
| Text.Lower | src/customer/services/customer.service.ts:50-53 | `toLowerCase` / `lower()` on ASCII: same length, each letter lowered, no upper-case letter left. |
| Text.LowerIdempotent | src/customer/services/customer.service.ts:50-53 | Lower-casing twice is lower-casing once. |
| Text.ContainsIffOccurs | src/customer/services/customer.service.ts:51-52 | `like '%text%'`, read as a scan for a start position, holds exactly when the text occurs at some position (both directions). |
| Text.TextFilterMeaning | src/customer/services/customer.service.ts:50-54 | An absent or empty search keeps every row. Otherwise a row is kept exactly when its column is not NULL and the lower-cased search text occurs in the lower-cased column. |
| Text.TextFilterIgnoresCase | src/customer/services/customer.service.ts:50-54 | The verdict of a search box does not change when either side is lower-cased first. |
| Ordering.ParseSort | src/customer/services/customer.service.ts:71 | The direction is ascending exactly when the request says `ASC`. Anything else, absent included, is descending. |
| Ordering.ParseSortIdempotent | src/customer/services/customer.service.ts:71 | Normalising a normalised direction gives it back. |
| Ordering.PrecedesTotal | src/customer/services/customer.service.ts:82-83 | Any two column values can be ordered in either direction. |
| Ordering.PrecedesTransitive | src/customer/services/customer.service.ts:82-83 | The order on column values is transitive in both directions. |
| Ordering.Sort | src/customer/services/customer.service.ts:82-83 | `orderBy(column, sort)`: the result is sorted by the column in the chosen direction and is a permutation of its input. |
| Ordering.SortSameKeys | src/customer/services/customer.service.ts:82-83 | Sorting looks at rows only through the sort column: two keys that agree on every row give the same order. |
| Listing.OrderColumn | src/customer/services/customer.service.ts:73-81 | The column used is the requested one when it is whitelisted, and `updatedAt` otherwise. So it is always whitelisted or `updatedAt`. |
| Listing.OrderColumnIdempotent | src/customer/services/customer.service.ts:73-81 | Resolving an already resolved column changes nothing once `updatedAt` is whitelisted. |
| Listing.Window | src/customer/services/customer.service.ts:84-85 | `skip(s).take(limit)` returns the rows at positions s, s+1, … in order: `limit` of them, fewer only at the end, none past it. |
| Listing.WindowLocates | src/customer/services/customer.service.ts:84-85 | Pages tile the listing: row i is on page i / limit + 1, at position i mod limit. |
| Listing.Paginate | src/customer/services/customer.service.ts:45-93 | The listing fails exactly when the resolved column is not a property of the entity. Otherwise its page meets every condition of `IsPage` below, and its rows are the window of the ordered matches at offset (page-1)·limit. |
| Listing.WindowIsPage | src/customer/services/customer.service.ts:82-86 | `IsPage`: the count is the number of all matches, whatever the page. There are at most `limit` rows, and fewer only past the last full page. Every row is a live, matching row as stored, and no id appears twice. The rows are sorted by the resolved column in the normalised direction. |
| Listing.OrderedFacts | src/customer/services/customer.service.ts:82-86 | Before paging, the sorted matches hold one row per matching id, each a live matching row. |
| Listing.EveryMatchIsListed | src/customer/services/customer.service.ts:82-86 | When every page request meets tied rows in one shared order, every matching live row is on some page: the pages together cover all matches. |
| Ordering.InsertStable | src/customer/services/customer.service.ts:82-85 | Inserting a row into a sorted listing puts it in front of the rows whose key ties with it. The rows of every other key keep their order. |
| Ordering.SortStable | src/customer/services/customer.service.ts:82-85 | The sort is stable for any length: for every key value, the rows with that key come out in the order the query met them. |
| Ordering.SortKeepsTies | src/customer/services/customer.service.ts:82-85 | The two-row case of stability: two rows with equal sort keys keep the order in which the query meets them. |
| Contacts.TiesCanHideARow | src/customer/services/customer.service.ts:82-86 | Without that shared order coverage fails: two live contacts with the same name, one per page by name, where page 1 meets them as b, a and page 2 as a, b. Both pages return b and a is on no page. |
| Contacts.FilterMeaning | src/customer/services/customer.service.ts:50-69 | The name, phone and companyName boxes are joined by AND. Each box in force demands its lower-cased text inside the lower-cased column, and a NULL phone or company fails a box in force. |
| Contacts.NoSearchCountsAllLive | src/customer/services/customer.service.ts:48-69 | With no box in force, the listing counts exactly the live rows. |
| Contacts.Merge | src/customer/services/customer.service.ts:118-128 | Spreading an update body over the stored contact, then saving it, fails exactly when the body sends `name` as null. `name` is the one NOT NULL column. |
| Contacts.MergeNothing | src/customer/services/customer.service.ts:121-124 | An update body that leaves every field out stores the contact unchanged. |
| Contacts.MergeThen | src/customer/services/customer.service.ts:121-124 | Two successful updates in a row store what one update with the composed body stores. Field by field, the later body wins unless it leaves the field out. |
| Contacts.MergeIdempotent | src/customer/services/customer.service.ts:121-124 | Sending the same body twice stores what sending it once stores. |
| Contacts.List | src/customer/services/customer.service.ts:73-86 | The contact listing never fails, because its whitelist names only real columns. Its rows are exactly those that `skip((page - 1) * limit).take(limit)` picks from all matches in sorted order, and the page meets `IsPage`. |
| Contacts.Update | src/customer/services/customer.service.ts:118-128 | The update succeeds exactly on a live row whose body does not send `name` as null. A missing or inactive row fails with the service's not-found message, and a null name fails with `NotNullViolation`. On success, fields left out keep their stored value, a nullable field sent as null becomes NULL, and every other field takes the value sent. |
| CustomerService.GetById | src/customer/services/customer.service.ts:164-173 | Only a live customer is found. Otherwise the result is "Customer Not Found!!". |
| CustomerService.FindAll | src/customer/services/customer.service.ts:24-35 | Exactly the live customers, each once. |
| CustomerService.Pagination | src/customer/services/customer.service.ts:37-97 | A page of the customers the three boxes accept. Its rows are exactly those that `skip((page - 1) * limit).take(limit)` picks from all matches in sorted order, and the page meets `IsPage`. |
| CustomerService.Create | src/customer/services/customer.service.ts:99-116 | One new live customer with the submitted fields, and nothing else changes. |
| CustomerService.Update | src/customer/services/customer.service.ts:118-135 | Fails with "Customer Not Found!!" unless the customer is live, and with `NotNullViolation` when the body sends `name` as null. Otherwise fields sent replace or clear the stored ones, and the rest are kept. |
| CustomerService.Remove | src/customer/services/customer.service.ts:137-149 | Only the flag of a live customer changes. Afterwards the customer is not found. |
| SellerService.GetById | src/seller/services/seller.service.ts:153-162 | Only a live seller is found. Otherwise the result is "Seller Not Found!!". |
| SellerService.FindAll | src/seller/services/seller.service.ts:21-30 | Exactly the live sellers, each once. |
| SellerService.Pagination | src/seller/services/seller.service.ts:32-90 | A page of the sellers the three boxes accept. Its rows are exactly those that `skip((page - 1) * limit).take(limit)` picks from all matches in sorted order, and the page meets `IsPage`. |
| SellerService.Create | src/seller/services/seller.service.ts:92-107 | One new live seller with the submitted fields, and nothing else changes. |
| SellerService.Update | src/seller/services/seller.service.ts:109-126 | Fails with "Seller Not Found!!" unless the seller is live, and with `NotNullViolation` when the body sends `name` as null. Otherwise fields sent replace or clear the stored ones, and the rest are kept. |
| SellerService.Remove | src/seller/services/seller.service.ts:128-140 | Only the flag of a live seller changes. Afterwards the seller is not found. |
| BuyerService.GetById | src/buyer/services/buyer.service.ts:147-156 | Only a live buyer is found. Otherwise the result is "Buyer Not Found!!". |
| BuyerService.FindAll | src/buyer/services/buyer.service.ts:21-30 | Exactly the live buyers, each once. |
| BuyerService.Pagination | src/buyer/services/buyer.service.ts:32-86 | A page of the buyers the three boxes accept. Its rows are exactly those that `skip((page - 1) * limit).take(limit)` picks from all matches in sorted order, and the page meets `IsPage`. |
| BuyerService.Create | src/buyer/services/buyer.service.ts:88-103 | One new live buyer with the submitted fields, and nothing else changes. |
| BuyerService.Update | src/buyer/services/buyer.service.ts:105-120 | Fails with "Buyer Not Found!!" unless the buyer is live, and with `NotNullViolation` when the body sends `name` as null. Otherwise fields sent replace or clear the stored ones, and the rest are kept. |
| BuyerService.Remove | src/buyer/services/buyer.service.ts:122-134 | Only the flag of a live buyer changes. Afterwards the buyer is not found. |
| PurchaseService.GetById | src/purchase/services/purchase.service.ts:135-144 | Only a live purchase is found. Otherwise the result is "Purchase Not Found!!". |
| PurchaseService.FindAll | src/purchase/services/purchase.service.ts:21-30 | Exactly the live purchases, each once. |
| PurchaseService.PaginationAsWritten | src/purchase/services/purchase.service.ts:48-64 | With the whitelist as written, the listing fails exactly when `puchaseDate` is requested. Every other request succeeds. Its rows are exactly those that `skip((page - 1) * limit).take(limit)` picks from all matches in sorted order, and the page meets `IsPage`. |
| PurchaseService.PurchaseDateOrderAsWritten | src/purchase/services/purchase.service.ts:50-61 | As written, ordering by `puchaseDate` fails, and ordering by `purchaseDate` silently falls back to `updatedAt`. With the entity's spelling whitelisted, `purchaseDate` is used. |
| PurchaseService.Pagination | src/purchase/services/purchase.service.ts:32-74 | With `purchaseDate` whitelisted, the listing never fails. Its rows are exactly those that `skip((page - 1) * limit).take(limit)` picks from all matches in sorted order, and the page meets `IsPage`. A request for `purchaseDate` is sorted by the purchase date. |
| PurchaseService.PaginationAgreesAwayFromDate | src/purchase/services/purchase.service.ts:50-64 | For every order other than the two date spellings, the as-written and corrected listings return the same page. |
| PurchaseService.CreateAsWritten | src/purchase/services/purchase.service.ts:76-91 | As written, create stores a new live purchase whose date is NULL, whatever date was submitted. |
| PurchaseService.Create | src/purchase/services/purchase.service.ts:76-91 | With the date mapped to the entity's property, reading the new purchase back gives the submitted name, amount, price and date. |
| PurchaseService.UpdateAsWritten | src/purchase/services/purchase.service.ts:93-108 | As written, update fails with the not-found message unless the purchase is live. It fails with `NotNullViolation` when name, amount or price is sent as null. Otherwise it merges name, amount and price and never changes the stored date. |
| PurchaseService.Update | src/purchase/services/purchase.service.ts:93-108 | Update fails with the not-found message unless the purchase is live. It fails with `NotNullViolation` when name, amount or price is sent as null. Otherwise fields sent, the date included, replace the stored ones. A date sent as null clears it, and the rest are kept. |
| PurchaseService.UpdateDateAsWritten | src/purchase/services/purchase.service.ts:93-103 | A date sent, or a null sent for it, is lost by the as-written update. The corrected update stores it. |
| PurchaseService.Remove | src/purchase/services/purchase.service.ts:110-122 | Only the flag of a live purchase changes. Afterwards the purchase is not found. |
| Drawing.Check | src/sell/services/sell.service.ts:88-95 | The guard passes exactly when the purchase is live and its amount is at least the amount asked for, so an equal amount passes. A missing or inactive purchase fails with "Purchase Not Found!!". A live one that is too small fails with the exceeding error. |
| Drawing.CheckMonotone | src/sell/services/sell.service.ts:93-95 | A smaller draw on the same purchase passes whenever a larger one does. |
| SellService.GetById | src/sell/services/sell.service.ts:155-165 | Only a live sell is found. Otherwise the result is "Sell Not Found!!". |
| SellService.FindAll | src/sell/services/sell.service.ts:24-34 | Exactly the live sells, each once. |
| SellService.Pagination | src/sell/services/sell.service.ts:36-79 | A page of the sells whose name matches. It never fails. Its rows are exactly those that `skip((page - 1) * limit).take(limit)` picks from all matches in sorted order, and the page meets `IsPage`. |
| SellService.Create | src/sell/services/sell.service.ts:81-105 | Create succeeds exactly when the guard passes, with not-found checked before exceeding. On success it adds one live sell linked to that purchase and changes nothing else. |
| SellService.Update | src/sell/services/sell.service.ts:107-128 | "Sell Not Found!!" comes first, then "Purchase Not Found!!", then `NotNullViolation` for a name, price or amount sent as null. Otherwise the sell is merged and relinked, with no amount check. |
| SellService.Remove | src/sell/services/sell.service.ts:130-142 | Only the flag of a live sell changes. Afterwards the sell is not found. |
| SellService.CreateIgnoresEarlierSells | src/sell/services/sell.service.ts:93-99 | The guard's verdict does not depend on the sells already stored: the check is per sell, not cumulative. |
| SellService.TwoFullSellsPass | src/sell/services/sell.service.ts:93-99 | Two sells each of the whole purchase amount both pass, drawing twice what was bought. |
| SellService.UpdateCanExceedPurchase | src/sell/services/sell.service.ts:107-123 | An update can raise a sell's amount past its purchase's amount. |
| ManufactureService.GetById | src/manufacture/services/manufacture.service.ts:174-184 | Only a live manufacture is found. Otherwise the result is "Manufacture Not Found!!". |
| ManufactureService.FindAll | src/manufacture/services/manufacture.service.ts:27-39 | Exactly the live manufactures, each once. |
| ManufactureService.Pagination | src/manufacture/services/manufacture.service.ts:41-86 | A page of the manufactures whose name matches. It never fails. Its rows are exactly those that `skip((page - 1) * limit).take(limit)` picks from all matches in sorted order, and the page meets `IsPage`. |
| ManufactureService.Create | src/manufacture/services/manufacture.service.ts:88-114 | Create succeeds exactly when the guard passes, with not-found checked before exceeding. On success it adds one live manufacture linked to that purchase and changes nothing else. |
| ManufactureService.Update | src/manufacture/services/manufacture.service.ts:116-145 | "Manufacture Not Found!!" comes first, then "Purchase Not Found!!", then `NotNullViolation` for a name or amount sent as null. Otherwise the manufacture is merged and relinked, with no amount check. |
| ManufactureService.Remove | src/manufacture/services/manufacture.service.ts:147-159 | Only the flag of a live manufacture changes. Afterwards the manufacture is not found. |
| ManufactureService.CreateIgnoresEarlierManufactures | src/manufacture/services/manufacture.service.ts:100-106 | The guard's verdict does not depend on the manufactures already stored. |
| LedgerService.GetById | src/ledger/services/ledger.service.ts:163-173 | Only a live ledger is found. Otherwise the result is "Ledger Not Found!!". |
| LedgerService.FindAll | src/ledger/services/ledger.service.ts:24-34 | Exactly the live ledgers, each once. |
| LedgerService.Pagination | src/ledger/services/ledger.service.ts:36-89 | A non-empty customer id that is not a live customer fails with "Customer Not Found!!". Otherwise the page counts and lists only that customer's live ledgers, or all live ledgers when no customer id is given. Its rows are exactly those that `skip((page - 1) * limit).take(limit)` picks from all matches in sorted order, and the page meets `IsPage`. |
| LedgerService.Create | src/ledger/services/ledger.service.ts:91-111 | Create succeeds exactly for a live customer. The new ledger keeps the submitted amounts, is linked to that customer, and its remainder is the previous balance less the deposit. |
| LedgerService.Update | src/ledger/services/ledger.service.ts:113-136 | "Ledger Not Found!!" comes first, then "Customer Not Found!!", then `NotNullViolation` for an amount sent as null. Otherwise the amounts are merged, the customer is relinked, and the remainder is kept as stored. |
| LedgerService.Remove | src/ledger/services/ledger.service.ts:138-150 | Only the flag of a live ledger changes. Afterwards the ledger is not found. |
| LedgerService.CreateRemoveKeepBalance | src/ledger/services/ledger.service.ts:102-105 | Create and remove keep every stored ledger balanced (remainder = previous − deposit). |
| LedgerService.UpdateKeepsBalanceWithoutAmounts | src/ledger/services/ledger.service.ts:113-129 | An update that leaves both amounts out keeps every ledger balanced. |
| LedgerService.UpdateCanUnbalance | src/ledger/services/ledger.service.ts:113-129 | An update of the deposit leaves a balanced ledger unbalanced. |
| Links.SellOperationsKeepLinks | src/sell/services/sell.service.ts:97-123 | Creating, updating and removing sells keeps every sell linked to a stored purchase. |
| Links.ManufactureOperationsKeepLinks | src/manufacture/services/manufacture.service.ts:104-138 | Creating, updating and removing manufactures keeps every manufacture linked to a stored purchase. |
| Links.LedgerOperationsKeepLinks | src/ledger/services/ledger.service.ts:98-129 | Creating, updating and removing ledgers keeps every ledger linked to a stored customer. |
| Links.PurchaseOperationsKeepLinks | src/purchase/services/purchase.service.ts:76-122 | No purchase operation drops a row, so sells and manufactures keep naming stored purchases. |
| Links.CustomerOperationsKeepLinks | src/customer/services/customer.service.ts:99-149 | No customer operation drops a row, so ledgers keep naming stored customers. |
| Links.RemovedPurchaseOrphansSells | src/purchase/services/purchase.service.ts:110-122 | Removing a purchase leaves its sells live, each naming a purchase that is no longer found. |

## Left out

- **Framework layer:** controllers, modules, bootstrap, role guards and response envelopes are framework wiring around the services. So are the request-shaping `forCreate`/`forUpdate` and the entity/DTO conversion, which the model treats as identity.
- **Request validation:** the class-validator decorators and the UUID pipe are left out. Create inputs carry every field. An update body's field may be left out, sent as null or sent with a value, because the update pipe skips validation of missing and null properties alike (src/customer/controllers/customer.controller.ts:118-124). The validation pipe itself is not part of this model.
- **Null on a NOT NULL column:** the model refuses it with `NotNullViolation`, as MySQL does in strict mode. A server without strict mode would store the column's implicit default instead. That, and what the string-to-number transformer makes of a null amount, are not modelled.
- **Parent id on update:** the update request's `purchaseId` or `customerId` is taken as always present and not null. With it absent, the ORM would drop the undefined id from the lookup's WHERE clause and could pick an arbitrary live parent. What the lookup does with a null id is not modelled either.
- **Unique indexes:** the unique indexes on `phone` and `companyName`, and the one-to-one `customer` joins of ledgers and sells, are database constraints. A save that violates one fails in the database, which is not modelled.
- **Unset columns:** `transactionType` (default cash) and the `customer` link of purchases and sells are never set by the services and are not modelled.
- **Timestamps:** `createAt` and `updatedAt` are set once, at create, from a parameter. The refresh of `updatedAt` on save belongs to the base entity, which is not part of this model.
- **SQL semantics:**
  - `%` and `_` typed into a search box are read as plain characters.
  - Case folding is ASCII only.
  - The database's collation and its comparison of decimals and dates are replaced by the fixed order described above.
  - Rows with equal sort keys may come back in any order. In the model, one call's tie order is the order its `scan` parameter meets the rows, because the sort keeps scan order on ties (`Ordering.SortStable`). The listing contract fixes the exact rows for that order, and it holds for every `scan`, so it covers whatever tie order a single query picks. Nothing relates the tie orders of two different calls.
- Listing.EveryMatchIsListed: proved only when all page requests share one `scan`, that is, one tie order. The ORDER BY names one column and no unique tie-breaker, and MySQL may order tied rows differently in each LIMIT/OFFSET query. Then a tied row can be on no page, as `Contacts.TiesCanHideARow` shows.
- **Numbers:** amounts are `real`. JavaScript floating point, the string-to-number transformer and the six-decimal rounding of the column are not modelled.
- **Page parameters:** page and limit parsing belongs to the pagination decorator, which is not part of this model. `page >= 1` and `limit >= 1` are preconditions.
- **Concurrency:** the amount guard reads the purchase and then saves without a transaction. The model is sequential.
- **Wrapped exceptions:** all service errors are rethrown wrapped in a system exception. The model keeps the inner error, which is what distinguishes the cases.
- **Ledger's empty-page branch:** ledger pagination returns an empty page when the customer lookup comes back empty. That lookup already fails with "Customer Not Found!!" in that case (src/ledger/services/ledger.service.ts:45-51), so the branch is unreachable and left out.
- **Missing DTO:** the manufacture DTO is not part of this model. The manufacture fields are those of the entity: name, amount and manufactureDate.

## Findings

| source | as written | input that shows it | evidently intended | confidence | as-written member | corrected member |
|---|---|---|---|---|---|---|
| src/purchase/services/purchase.service.ts:50-61 | The order whitelist spells the date column `puchaseDate`, but the entity property is `purchaseDate` (src/common/entities/purchase.entity.ts:41-46). | `order=puchaseDate`: the query orders by a property the entity does not have and fails. `order=purchaseDate` is not whitelisted and is silently ordered by `updatedAt`. | The whitelist names `purchaseDate`, so purchases can be listed by date. | medium; not executed | PurchaseService.PaginationAsWritten, PurchaseService.PurchaseDateOrderAsWritten | PurchaseService.Pagination, PurchaseService.PaginationAgreesAwayFromDate |
| src/common/dtos/purchase/purchase.dto.ts:40-43 | The request field is `puchaseDate`, which is not an entity property. Create therefore stores NULL as the date, and update never changes it. | Create a purchase with `puchaseDate` set to any date, then read it back: `purchaseDate` is NULL. The create pipe forbids any property that is not whitelisted, so `purchaseDate` cannot be sent instead. | The submitted date is stored in `purchaseDate` and can be updated. | high; not executed | PurchaseService.CreateAsWritten, PurchaseService.UpdateAsWritten, PurchaseService.UpdateDateAsWritten | PurchaseService.Create, PurchaseService.Update |

=== FILE: buyer.dfy ===
/** BuyerService: a third contact book with the same columns. */
module BuyerService {
  import opened Outcomes
  import opened Store
  import opened Contacts
  import Listing

  const NotFoundMessage: string := "Buyer Not Found!!"

  /** getBuyerById / findById: only a live buyer is found. */
  function GetById(buyers: Table<Contact>, id: Id): (r: Result<Contact>)
    ensures r.Ok? <==> Live(buyers, id)
    ensures r.Ok? ==> r.value == buyers[id].data
    ensures r.Err? ==> r.error == NotFound(NotFoundMessage)
  {
    Get(buyers, id, NotFoundMessage)
  }

  /** findAll: every live buyer, once each. */
  function FindAll(buyers: Table<Contact>, scan: seq<Id>): (rows: seq<Entry<Contact>>)
    requires IsScan(buyers, scan)
    ensures forall e :: e in rows ==> Live(buyers, e.id) && e.row == buyers[e.id]
    ensures forall id :: Live(buyers, id) ==> Entry(id, buyers[id]) in rows
    ensures |rows| == |LiveIds(buyers)|
  {
    Store.FindAll(buyers, scan)
  }

  /** pagination: filtered by the three search boxes, never fails. */
  function Pagination(buyers: Table<Contact>, scan: seq<Id>, page: int, limit: int,
                      sort: Option<string>, order: Option<string>, search: ContactSearch): (p: Listing.Page<Contact>)
    requires page >= 1 && limit >= 1 && IsScan(buyers, scan)
    ensures Listing.IsListing(Contacts.Kind, buyers, scan, Filter(search), page, limit, sort, order, p)
  {
    List(buyers, scan, page, limit, sort, order, search)
  }

  /** create: a new live buyer holding exactly the submitted fields. */
  function Create(buyers: Table<Contact>, id: Id, input: Contact, stamp: int): (t: Table<Contact>)
    requires id !in buyers
    ensures Added(buyers, id, input, stamp, t)
    ensures GetById(t, id) == Ok(input)
  {
    Add(buyers, id, input, stamp)
  }

  /** update: only a live buyer, and not with a null name; fields sent replace or clear the stored ones. */
  function Update(buyers: Table<Contact>, id: Id, patch: ContactPatch): (r: Result<Table<Contact>>)
    ensures r.Ok? <==> Live(buyers, id) && !patch.name.Clear?
    ensures r.Err? && !Live(buyers, id) ==> r.error == NotFound(NotFoundMessage)
    ensures r.Err? && Live(buyers, id) ==> r.error == NotNullViolation
    ensures r.Ok? ==> Replaced(buyers, id, Merge(buyers[id].data, patch).value, r.value)
    ensures r.Ok? ==> GetById(r.value, id).Ok? && Merged(buyers[id].data, patch, GetById(r.value, id).value)
  {
    Contacts.Update(buyers, id, patch, NotFoundMessage)
  }

  /** remove: a soft delete of a live buyer; afterwards it is no longer found. */
  function Remove(buyers: Table<Contact>, id: Id): (r: Result<Table<Contact>>)
    ensures r.Ok? <==> Live(buyers, id)
    ensures r.Err? ==> r.error == NotFound(NotFoundMessage)
    ensures r.Ok? ==> SoftDeleted(buyers, id, r.value) && GetById(r.value, id).Err?
  {
    SoftDelete(buyers, id, NotFoundMessage)
  }
}

=== FILE: contacts.dfy ===
/** The record shared by customers, sellers and buyers: three tables with the same three
columns (`name`, and the nullable `phone` and `companyName`), the same three search
boxes and the same order whitelist.
 */
module Contacts {
  import opened Outcomes
  import opened Text
  import opened Ordering
  import opened Store
  import Listing

  datatype Contact = Contact(name: string, phone: Option<string>, companyName: Option<string>)

  /** An update body: each field left out, sent as null, or sent with a value. */
  datatype ContactPatch = ContactPatch(name: Patch<string>, phone: Patch<string>, companyName: Patch<string>)

  /** The three optional search boxes of the listing. */
  datatype ContactSearch = ContactSearch(name: Option<string>, phone: Option<string>, companyName: Option<string>)

  const OrderFields: seq<string> := ["name", "phone", "companyName", "createAt", "updatedAt"]

  function NullableText(o: Option<string>): Value
  {
    match o
    case Some(s) => Text(s)
    case None => Null
  }

  function Field(c: Contact, col: string): Value
  {
    if col == "name" then Text(c.name)
    else if col == "phone" then NullableText(c.phone)
    else if col == "companyName" then NullableText(c.companyName)
    else Null
  }

  const Kind: Listing.Kind<Contact> := Listing.Kind(OrderFields, {"name", "phone", "companyName"}, Field)

  /** The listing's WHERE clause beyond `isActive`: the three boxes joined by AND. */
  function Filter(search: ContactSearch): Contact -> bool
  {
    (c: Contact) =>
      && TextFilter(Some(c.name), search.name)
      && TextFilter(c.phone, search.phone)
      && TextFilter(c.companyName, search.companyName)
  }

  /** What the three boxes keep: every box in force must find its lower-cased text inside the
      lower-cased column (a NULL column fails a box in force); boxes not in force keep everything. */
  lemma FilterMeaning(search: ContactSearch, c: Contact)
    ensures Filter(search)(c) <==>
      && (Applies(search.name) ==> Occurs(Lower(c.name), Lower(search.name.value)))
      && (Applies(search.phone) ==> c.phone.Some? && Occurs(Lower(c.phone.value), Lower(search.phone.value)))
      && (Applies(search.companyName) ==>
            c.companyName.Some? && Occurs(Lower(c.companyName.value), Lower(search.companyName.value)))
  {
    TextFilterMeaning(Some(c.name), search.name);
    TextFilterMeaning(c.phone, search.phone);
    TextFilterMeaning(c.companyName, search.companyName);
  }

  /** With no box in force the listing counts every live row. */
  lemma NoSearchCountsAllLive(t: Table<Contact>, search: ContactSearch)
    requires !Applies(search.name) && !Applies(search.phone) && !Applies(search.companyName)
    ensures Matches(t, Filter(search)) == LiveIds(t)
  {
  }

  /** `{ ...saved, ...dto }`, then the save: `name` is NOT NULL, so a body that sends it as null fails. */
  function Merge(c: Contact, patch: ContactPatch): (r: Result<Contact>)
    ensures r.Err? <==> patch.name.Clear?
    ensures r.Err? ==> r.error == NotNullViolation
  {
    var name := Apply(patch.name, Some(c.name));
    if name.None? then Err(NotNullViolation)
    else Ok(Contact(name.value, Apply(patch.phone, c.phone), Apply(patch.companyName, c.companyName)))
  }

  /** `merged` is what the save stores: every field left out is the stored one, every field sent as
      null is NULL, every other field is the value sent. */
  ghost predicate Merged(stored: Contact, patch: ContactPatch, merged: Contact)
  {
    && (patch.name.Keep? ==> merged.name == stored.name)
    && (patch.name.Set? ==> merged.name == patch.name.value)
    && (patch.phone.Keep? ==> merged.phone == stored.phone)
    && (patch.phone.Clear? ==> merged.phone == None)
    && (patch.phone.Set? ==> merged.phone == Some(patch.phone.value))
    && (patch.companyName.Keep? ==> merged.companyName == stored.companyName)
    && (patch.companyName.Clear? ==> merged.companyName == None)
    && (patch.companyName.Set? ==> merged.companyName == Some(patch.companyName.value))
  }

  /** Two update bodies sent one after the other, as one body: the later wins field by field. */
  function Compose(first: ContactPatch, second: ContactPatch): ContactPatch
  {
    ContactPatch(Then(first.name, second.name), Then(first.phone, second.phone),
                 Then(first.companyName, second.companyName))
  }

  const Nothing: ContactPatch := ContactPatch(Keep, Keep, Keep)

  /** An empty body stores the record unchanged. */
  lemma MergeNothing(c: Contact)
    ensures Merge(c, Nothing) == Ok(c)
  {
  }

  /** Two successful updates in a row store what one update with the composed body stores. */
  lemma MergeThen(c: Contact, first: ContactPatch, second: ContactPatch)
    requires Merge(c, first).Ok?
    ensures Merge(Merge(c, first).value, second) == Merge(c, Compose(first, second))
  {
    ApplyThen(first.phone, second.phone, c.phone);
    ApplyThen(first.companyName, second.companyName, c.companyName);
  }

  /** Sending the same body twice stores what sending it once does. */
  lemma MergeIdempotent(c: Contact, patch: ContactPatch)
    requires Merge(c, patch).Ok?
    ensures Merge(Merge(c, patch).value, patch) == Merge(c, patch)
  {
    MergeThen(c, patch, patch);
    assert Compose(patch, patch) == patch;
  }

  /** The pagination shared by the three services; their whitelist only names real columns, so it never fails. */
  function List(t: Table<Contact>, scan: seq<Id>, page: int, limit: int,
                sort: Option<string>, order: Option<string>, search: ContactSearch): (p: Listing.Page<Contact>)
    requires page >= 1 && limit >= 1 && IsScan(t, scan)
    ensures Listing.IsListing(Kind, t, scan, Filter(search), page, limit, sort, order, p)
    ensures Listing.OrderColumn(order, OrderFields) in OrderFields
  {
    var r := Listing.Paginate(Kind, t, scan, Filter(search), page, limit, sort, order);
    r.value
  }

  /** The order has no unique tie-breaker: two live contacts with the same name, listed one per
      page by name, where the first page's query meets the ties as b, a and the second's as a, b.
      Both pages hold b, and a is on neither. */
  lemma TiesCanHideARow()
    ensures var row := Row(Contact("A", None, None), true, 0, 0);
            var t := map["a" := row, "b" := row];
            var keep := Filter(ContactSearch(None, None, None));
            var first := Listing.Window(Listing.Ordered(Kind, t, ["b", "a"], keep, Some("ASC"), Some("name")),
                                        Listing.Offset(1, 1), 1);
            var second := Listing.Window(Listing.Ordered(Kind, t, ["a", "b"], keep, Some("ASC"), Some("name")),
                                         Listing.Offset(2, 1), 1);
            && IsScan(t, ["b", "a"]) && IsScan(t, ["a", "b"])
            && first == second == [Entry("b", row)]
  {
    var row := Row(Contact("A", None, None), true, 0, 0);
    var t := map["a" := row, "b" := row];
    var keep := Filter(ContactSearch(None, None, None));
    var key := Listing.KeyOf(Kind, Listing.OrderColumn(Some("name"), OrderFields));
    SelectTwo(t, "b", "a", keep);
    SelectTwo(t, "a", "b", keep);
    SortKeepsTies(Entry("b", row), Entry("a", row), key, Asc);
    SortKeepsTies(Entry("a", row), Entry("b", row), key, Asc);
  }

  /** The update every contact service runs: look the row up among the live ones, then save the merge. */
  function Update(t: Table<Contact>, id: Id, patch: ContactPatch, message: string): (r: Result<Table<Contact>>)
    ensures r.Ok? <==> Live(t, id) && !patch.name.Clear?
    ensures r.Err? && !Live(t, id) ==> r.error == NotFound(message)
    ensures r.Err? && Live(t, id) ==> r.error == NotNullViolation
    ensures r.Ok? ==> Replaced(t, id, Merge(t[id].data, patch).value, r.value)
    ensures r.Ok? ==> Merged(t[id].data, patch, r.value[id].data) && Live(r.value, id)
  {
    var saved :- Get(t, id, message);
    var merged :- Merge(saved, patch);
    Ok(Put(t, id, merged))
  }
}

=== FILE: customer.dfy ===
/** CustomerService: the customers a ledger is kept for. */
module CustomerService {
  import opened Outcomes
  import opened Store
  import opened Contacts
  import Listing

  const NotFoundMessage: string := "Customer Not Found!!"

  /** getCustomerById / findById: only a live customer is found. */
  function GetById(customers: Table<Contact>, id: Id): (r: Result<Contact>)
    ensures r.Ok? <==> Live(customers, id)
    ensures r.Ok? ==> r.value == customers[id].data
    ensures r.Err? ==> r.error == NotFound(NotFoundMessage)
  {
    Get(customers, id, NotFoundMessage)
  }

  /** findAll: every live customer, once each. */
  function FindAll(customers: Table<Contact>, scan: seq<Id>): (rows: seq<Entry<Contact>>)
    requires IsScan(customers, scan)
    ensures forall e :: e in rows ==> Live(customers, e.id) && e.row == customers[e.id]
    ensures forall id :: Live(customers, id) ==> Entry(id, customers[id]) in rows
    ensures |rows| == |LiveIds(customers)|
  {
    Store.FindAll(customers, scan)
  }

  /** pagination: filtered by the three search boxes, never fails. */
  function Pagination(customers: Table<Contact>, scan: seq<Id>, page: int, limit: int,
                      sort: Option<string>, order: Option<string>, search: ContactSearch): (p: Listing.Page<Contact>)
    requires page >= 1 && limit >= 1 && IsScan(customers, scan)
    ensures Listing.IsListing(Contacts.Kind, customers, scan, Filter(search), page, limit, sort, order, p)
  {
    List(customers, scan, page, limit, sort, order, search)
  }

  /** create: a new live customer holding exactly the submitted fields. */
  function Create(customers: Table<Contact>, id: Id, input: Contact, stamp: int): (t: Table<Contact>)
    requires id !in customers
    ensures Added(customers, id, input, stamp, t)
    ensures GetById(t, id) == Ok(input)
  {
    Add(customers, id, input, stamp)
  }

  /** update: only a live customer, and not with a null name; fields sent replace or clear the stored ones. */
  function Update(customers: Table<Contact>, id: Id, patch: ContactPatch): (r: Result<Table<Contact>>)
    ensures r.Ok? <==> Live(customers, id) && !patch.name.Clear?
    ensures r.Err? && !Live(customers, id) ==> r.error == NotFound(NotFoundMessage)
    ensures r.Err? && Live(customers, id) ==> r.error == NotNullViolation
    ensures r.Ok? ==> Replaced(customers, id, Merge(customers[id].data, patch).value, r.value)
    ensures r.Ok? ==> GetById(r.value, id).Ok? && Merged(customers[id].data, patch, GetById(r.value, id).value)
  {
    Contacts.Update(customers, id, patch, NotFoundMessage)
  }

  /** remove: a soft delete of a live customer; afterwards it is no longer found. */
  function Remove(customers: Table<Contact>, id: Id): (r: Result<Table<Contact>>)
    ensures r.Ok? <==> Live(customers, id)
    ensures r.Err? ==> r.error == NotFound(NotFoundMessage)
    ensures r.Ok? ==> SoftDeleted(customers, id, r.value) && GetById(r.value, id).Err?
  {
    SoftDelete(customers, id, NotFoundMessage)
  }
}

=== FILE: drawing.dfy ===
/** The guard sells and manufactures share when they are created against a purchase.

The purchase is looked up among the live ones first ("Purchase Not Found!!");
then the draw is refused when the purchase's amount is strictly less than the
amount asked for. The guard compares one draw with the purchase's own amount:
what earlier sells or manufactures drew is not subtracted.
 */
module Drawing {
  import opened Outcomes
  import opened Store
  import PurchaseService

  type Purchases = Table<PurchaseService.Purchase>

  /** A draw of `amount` on purchase `pid` is within what that purchase holds. */
  predicate Allows(purchases: Purchases, pid: Id, amount: real)
  {
    Live(purchases, pid) && amount <= purchases[pid].data.amount
  }

  /** Look the purchase up, then refuse a draw larger than its amount; an equal draw passes. */
  function Check(purchases: Purchases, pid: Id, amount: real): (r: Result<PurchaseService.Purchase>)
    ensures r.Ok? <==> Allows(purchases, pid, amount)
    ensures r.Ok? ==> r.value == purchases[pid].data
    ensures r.Err? && !Live(purchases, pid) ==> r.error == NotFound(PurchaseService.NotFoundMessage)
    ensures r.Err? && Live(purchases, pid) ==> r.error == ExceedingPurchase
  {
    var purchase :- PurchaseService.GetById(purchases, pid);
    if purchase.amount < amount then Err(ExceedingPurchase) else Ok(purchase)
  }

  /** The guard is monotone in the amount: a smaller draw on the same purchase passes whenever a larger one does. */
  lemma CheckMonotone(purchases: Purchases, pid: Id, small: real, large: real)
    requires small <= large
    ensures Check(purchases, pid, large).Ok? ==> Check(purchases, pid, small).Ok?
  {
  }
}

=== FILE: ledger.dfy ===
/** LedgerService: a customer's running account.

A ledger stores what the customer owed before (`previousLedger`), what they paid
(`depositAmount`) and what remains. Create derives the remainder from the other
two; update merges the request over the stored ledger and keeps the stored
remainder as it is.
 */
module LedgerService {
  import opened Outcomes
  import opened Text
  import opened Ordering
  import opened Store
  import Listing
  import Contacts
  import CustomerService

  /** A stored ledger; `customer` is the id of the customer it belongs to. */
  datatype Ledger = Ledger(previousLedger: real, depositAmount: real, remainingLedger: real, customer: Id)

  /** A create request; every field is required. */
  datatype LedgerInput = LedgerInput(previousLedger: real, depositAmount: real, customerId: Id)

  /** An update request: the customer is always named; each amount is left out, sent as null, or sent
      with a value. */
  datatype LedgerPatch = LedgerPatch(previousLedger: Patch<real>, depositAmount: Patch<real>, customerId: Id)

  /** The request sends null for one of the amounts, which are NOT NULL columns, so the save fails. */
  predicate ClearsRequired(patch: LedgerPatch)
  {
    patch.previousLedger.Clear? || patch.depositAmount.Clear?
  }

  type Customers = Table<Contacts.Contact>

  const NotFoundMessage: string := "Ledger Not Found!!"

  const OrderFields: seq<string> := ["previousLedger", "depositAmount", "createAt", "updatedAt"]

  function Field(l: Ledger, col: string): Value
  {
    if col == "previousLedger" then Num(l.previousLedger)
    else if col == "depositAmount" then Num(l.depositAmount)
    else if col == "remainingLedger" then Num(l.remainingLedger)
    else Null
  }

  const Kind: Listing.Kind<Ledger> := Listing.Kind(OrderFields, {"previousLedger", "depositAmount", "remainingLedger"}, Field)

  /** The remainder agrees with the two amounts it is derived from. */
  predicate Balanced(l: Ledger)
  {
    l.remainingLedger == l.previousLedger - l.depositAmount
  }

  /** The customer filter: in force only for a non-empty customer id, then it keeps that customer's ledgers. */
  function Filter(customerId: Option<string>): Ledger -> bool
  {
    (l: Ledger) => !Applies(customerId) || l.customer == customerId.value
  }

  /** getLedgerById / findById: only a live ledger is found. */
  function GetById(ledgers: Table<Ledger>, id: Id): (r: Result<Ledger>)
    ensures r.Ok? <==> Live(ledgers, id)
    ensures r.Ok? ==> r.value == ledgers[id].data
    ensures r.Err? ==> r.error == NotFound(NotFoundMessage)
  {
    Get(ledgers, id, NotFoundMessage)
  }

  /** findAll: every live ledger, once each. */
  function FindAll(ledgers: Table<Ledger>, scan: seq<Id>): (rows: seq<Entry<Ledger>>)
    requires IsScan(ledgers, scan)
    ensures forall e :: e in rows ==> Live(ledgers, e.id) && e.row == ledgers[e.id]
    ensures forall id :: Live(ledgers, id) ==> Entry(id, ledgers[id]) in rows
    ensures |rows| == |LiveIds(ledgers)|
  {
    Store.FindAll(ledgers, scan)
  }

  /** pagination: a customer id in the query must name a live customer, and then only that customer's
      live ledgers are counted and listed; without one every live ledger is. */
  function Pagination(ledgers: Table<Ledger>, customers: Customers, scan: seq<Id>, page: int, limit: int,
                      sort: Option<string>, order: Option<string>, customerId: Option<string>)
    : (r: Result<Listing.Page<Ledger>>)
    requires page >= 1 && limit >= 1 && IsScan(ledgers, scan)
    ensures r.Err? <==> Applies(customerId) && !Live(customers, customerId.value)
    ensures r.Err? ==> r.error == NotFound(CustomerService.NotFoundMessage)
    ensures r.Ok? ==> Listing.IsListing(Kind, ledgers, scan, Filter(customerId), page, limit, sort, order, r.value)
    ensures r.Ok? && Applies(customerId) ==> forall e :: e in r.value.rows ==> e.row.data.customer == customerId.value
  {
    if Applies(customerId) then
      var _ :- CustomerService.GetById(customers, customerId.value);
      Listing.Paginate(Kind, ledgers, scan, Filter(customerId), page, limit, sort, order)
    else
      Listing.Paginate(Kind, ledgers, scan, Filter(customerId), page, limit, sort, order)
  }

  /** The stored record a create makes: the remainder is what was owed less what was paid. */
  function FromInput(input: LedgerInput): Ledger
  {
    Ledger(input.previousLedger, input.depositAmount, input.previousLedger - input.depositAmount, input.customerId)
  }

  /** create: only for a live customer; the new ledger is linked to that customer and balanced. */
  function Create(ledgers: Table<Ledger>, customers: Customers, id: Id, input: LedgerInput, stamp: int)
    : (r: Result<Table<Ledger>>)
    requires id !in ledgers
    ensures r.Ok? <==> Live(customers, input.customerId)
    ensures r.Err? ==> r.error == NotFound(CustomerService.NotFoundMessage)
    ensures r.Ok? ==> Added(ledgers, id, FromInput(input), stamp, r.value)
    ensures r.Ok? ==> GetById(r.value, id).Ok? && Balanced(GetById(r.value, id).value)
    ensures r.Ok? ==> var l := GetById(r.value, id).value;
      l.previousLedger == input.previousLedger && l.depositAmount == input.depositAmount && l.customer == input.customerId
  {
    var _ :- CustomerService.GetById(customers, input.customerId);
    Ok(Add(ledgers, id, FromInput(input), stamp))
  }

  /** `{ ...saved, ...dto }`, then the save: an amount sent as null fails; the remainder is kept. */
  function Merge(l: Ledger, patch: LedgerPatch): (r: Result<Ledger>)
    ensures r.Err? <==> ClearsRequired(patch)
    ensures r.Err? ==> r.error == NotNullViolation
  {
    if ClearsRequired(patch) then Err(NotNullViolation)
    else Ok(Ledger(Required(patch.previousLedger, l.previousLedger), Required(patch.depositAmount, l.depositAmount),
                   l.remainingLedger, patch.customerId))
  }

  /** `merged` takes the supplied amounts and the named customer from `patch`; every other amount,
      the remainder included, from `stored`. */
  ghost predicate Merged(stored: Ledger, patch: LedgerPatch, merged: Ledger)
  {
    && (patch.previousLedger.Keep? ==> merged.previousLedger == stored.previousLedger)
    && (patch.previousLedger.Set? ==> merged.previousLedger == patch.previousLedger.value)
    && (patch.depositAmount.Keep? ==> merged.depositAmount == stored.depositAmount)
    && (patch.depositAmount.Set? ==> merged.depositAmount == patch.depositAmount.value)
    && merged.remainingLedger == stored.remainingLedger
    && merged.customer == patch.customerId
  }

  /** update: the ledger must be live ("Ledger Not Found!!" first), then the named customer must be live;
      last the save refuses an amount sent as null. The remainder is not recomputed. */
  function Update(ledgers: Table<Ledger>, customers: Customers, id: Id, patch: LedgerPatch): (r: Result<Table<Ledger>>)
    ensures r.Ok? <==> Live(ledgers, id) && Live(customers, patch.customerId) && !ClearsRequired(patch)
    ensures r.Err? && !Live(ledgers, id) ==> r.error == NotFound(NotFoundMessage)
    ensures r.Err? && Live(ledgers, id) && !Live(customers, patch.customerId) ==>
      r.error == NotFound(CustomerService.NotFoundMessage)
    ensures r.Err? && Live(ledgers, id) && Live(customers, patch.customerId) ==> r.error == NotNullViolation
    ensures r.Ok? ==> Replaced(ledgers, id, Merge(ledgers[id].data, patch).value, r.value)
    ensures r.Ok? ==> GetById(r.value, id).Ok? && Merged(ledgers[id].data, patch, GetById(r.value, id).value)
  {
    var saved :- GetById(ledgers, id);
    var _ :- CustomerService.GetById(customers, patch.customerId);
    var merged :- Merge(saved, patch);
    Ok(Put(ledgers, id, merged))
  }

  /** remove: a soft delete of a live ledger; afterwards it is no longer found. */
  function Remove(ledgers: Table<Ledger>, id: Id): (r: Result<Table<Ledger>>)
    ensures r.Ok? <==> Live(ledgers, id)
    ensures r.Err? ==> r.error == NotFound(NotFoundMessage)
    ensures r.Ok? ==> SoftDeleted(ledgers, id, r.value) && GetById(r.value, id).Err?
  {
    SoftDelete(ledgers, id, NotFoundMessage)
  }

  /** Every stored ledger is balanced. */
  ghost predicate AllBalanced(ledgers: Table<Ledger>)
  {
    forall id :: id in ledgers ==> Balanced(ledgers[id].data)
  }

  /** Create and remove keep every ledger balanced. */
  lemma CreateRemoveKeepBalance(ledgers: Table<Ledger>, customers: Customers, id: Id, input: LedgerInput,
                                stamp: int, gone: Id)
    requires AllBalanced(ledgers) && id !in ledgers
    ensures Create(ledgers, customers, id, input, stamp).Ok? ==> AllBalanced(Create(ledgers, customers, id, input, stamp).value)
    ensures Remove(ledgers, gone).Ok? ==> AllBalanced(Remove(ledgers, gone).value)
  {
  }

  /** An update that leaves both amounts alone keeps a ledger balanced. */
  lemma UpdateKeepsBalanceWithoutAmounts(ledgers: Table<Ledger>, customers: Customers, id: Id, patch: LedgerPatch)
    requires AllBalanced(ledgers)
    requires patch.previousLedger.Keep? && patch.depositAmount.Keep?
    ensures Update(ledgers, customers, id, patch).Ok? ==> AllBalanced(Update(ledgers, customers, id, patch).value)
  {
  }

  /** An update that changes the deposit leaves the stored remainder behind. */
  lemma UpdateCanUnbalance()
    ensures var customers: Customers := map["c" := Row(Contacts.Contact("Shovon", None, None), true, 0, 0)];
      var ledgers := map["l" := Row(Ledger(100.0, 40.0, 60.0, "c"), true, 0, 0)];
      var r := Update(ledgers, customers, "l", LedgerPatch(Keep, Set(70.0), "c"));
      && AllBalanced(ledgers)
      && r.Ok?
      && !Balanced(r.value["l"].data)
  {
  }
}

=== FILE: links.dfy ===
/** The links between tables: a sell or manufacture names its purchase, a ledger its customer.

A link is checked against the live parents only when it is written (create and
update). Removing a parent is a soft delete that does not look at its children,
so a child may outlive its parent's removal; the parent's row stays in its table
all the same, and the link always names a stored row.
 */
module Links {
  import opened Outcomes
  import opened Store
  import Contacts
  import PurchaseService
  import SellService
  import ManufactureService
  import CustomerService
  import LedgerService

  type Purchases = Table<PurchaseService.Purchase>

  ghost predicate SellsLinked(sells: Table<SellService.Sell>, purchases: Purchases)
  {
    forall id :: id in sells ==> sells[id].data.purchase in purchases
  }

  ghost predicate ManufacturesLinked(manufactures: Table<ManufactureService.Manufacture>, purchases: Purchases)
  {
    forall id :: id in manufactures ==> manufactures[id].data.purchase in purchases
  }

  ghost predicate LedgersLinked(ledgers: Table<LedgerService.Ledger>, customers: LedgerService.Customers)
  {
    forall id :: id in ledgers ==> ledgers[id].data.customer in customers
  }

  /** Creating or updating a sell writes a link to a live purchase; removing one touches no link. */
  lemma SellOperationsKeepLinks(sells: Table<SellService.Sell>, purchases: Purchases, id: Id,
                                input: SellService.SellInput, stamp: int, patch: SellService.SellPatch)
    requires SellsLinked(sells, purchases)
    ensures id !in sells && SellService.Create(sells, purchases, id, input, stamp).Ok? ==>
      SellsLinked(SellService.Create(sells, purchases, id, input, stamp).value, purchases)
    ensures SellService.Update(sells, purchases, id, patch).Ok? ==>
      SellsLinked(SellService.Update(sells, purchases, id, patch).value, purchases)
    ensures SellService.Remove(sells, id).Ok? ==> SellsLinked(SellService.Remove(sells, id).value, purchases)
  {
  }

  /** Creating or updating a manufacture writes a link to a live purchase; removing one touches no link. */
  lemma ManufactureOperationsKeepLinks(manufactures: Table<ManufactureService.Manufacture>, purchases: Purchases,
                                       id: Id, input: ManufactureService.ManufactureInput, stamp: int,
                                       patch: ManufactureService.ManufacturePatch)
    requires ManufacturesLinked(manufactures, purchases)
    ensures id !in manufactures && ManufactureService.Create(manufactures, purchases, id, input, stamp).Ok? ==>
      ManufacturesLinked(ManufactureService.Create(manufactures, purchases, id, input, stamp).value, purchases)
    ensures ManufactureService.Update(manufactures, purchases, id, patch).Ok? ==>
      ManufacturesLinked(ManufactureService.Update(manufactures, purchases, id, patch).value, purchases)
    ensures ManufactureService.Remove(manufactures, id).Ok? ==>
      ManufacturesLinked(ManufactureService.Remove(manufactures, id).value, purchases)
  {
  }

  /** Creating or updating a ledger writes a link to a live customer; removing one touches no link. */
  lemma LedgerOperationsKeepLinks(ledgers: Table<LedgerService.Ledger>, customers: LedgerService.Customers, id: Id,
                                  input: LedgerService.LedgerInput, stamp: int, patch: LedgerService.LedgerPatch)
    requires LedgersLinked(ledgers, customers)
    ensures id !in ledgers && LedgerService.Create(ledgers, customers, id, input, stamp).Ok? ==>
      LedgersLinked(LedgerService.Create(ledgers, customers, id, input, stamp).value, customers)
    ensures LedgerService.Update(ledgers, customers, id, patch).Ok? ==>
      LedgersLinked(LedgerService.Update(ledgers, customers, id, patch).value, customers)
    ensures LedgerService.Remove(ledgers, id).Ok? ==> LedgersLinked(LedgerService.Remove(ledgers, id).value, customers)
  {
  }

  /** No purchase operation drops a row, so every link to a purchase keeps naming a stored one. */
  lemma PurchaseOperationsKeepLinks(sells: Table<SellService.Sell>, manufactures: Table<ManufactureService.Manufacture>,
                                    purchases: Purchases, id: Id, input: PurchaseService.PurchaseInput, stamp: int,
                                    patch: PurchaseService.PurchasePatch)
    requires SellsLinked(sells, purchases) && ManufacturesLinked(manufactures, purchases)
    ensures id !in purchases ==>
      var t := PurchaseService.Create(purchases, id, input, stamp);
      SellsLinked(sells, t) && ManufacturesLinked(manufactures, t)
    ensures PurchaseService.Update(purchases, id, patch).Ok? ==>
      var t := PurchaseService.Update(purchases, id, patch).value;
      SellsLinked(sells, t) && ManufacturesLinked(manufactures, t)
    ensures PurchaseService.Remove(purchases, id).Ok? ==>
      var t := PurchaseService.Remove(purchases, id).value;
      SellsLinked(sells, t) && ManufacturesLinked(manufactures, t)
  {
  }

  /** No customer operation drops a row, so every ledger keeps naming a stored customer. */
  lemma CustomerOperationsKeepLinks(ledgers: Table<LedgerService.Ledger>, customers: LedgerService.Customers,
                                    id: Id, input: Contacts.Contact, stamp: int, patch: Contacts.ContactPatch)
    requires LedgersLinked(ledgers, customers)
    ensures id !in customers ==> LedgersLinked(ledgers, CustomerService.Create(customers, id, input, stamp))
    ensures CustomerService.Update(customers, id, patch).Ok? ==>
      LedgersLinked(ledgers, CustomerService.Update(customers, id, patch).value)
    ensures CustomerService.Remove(customers, id).Ok? ==>
      LedgersLinked(ledgers, CustomerService.Remove(customers, id).value)
  {
  }

  /** Removing a purchase leaves its sells live, each naming a purchase that is no longer found. */
  lemma RemovedPurchaseOrphansSells()
    ensures var purchases: Purchases := map["p" := Row(PurchaseService.Purchase("Wheat", 10.0, 50.0, None), true, 0, 0)];
      var sells := map["s" := Row(SellService.Sell("Flour", 60.0, 4.0, None, "p"), true, 0, 0)];
      var r := PurchaseService.Remove(purchases, "p");
      && r.Ok?
      && SellService.GetById(sells, "s").Ok?
      && PurchaseService.GetById(r.value, SellService.GetById(sells, "s").value.purchase).Err?
      && SellsLinked(sells, r.value)
  {
  }
}

=== FILE: listing.dfy ===
/** The `pagination` method every service repeats.

It keeps the live rows its filters accept, normalises the direction to ascending
or descending, keeps the requested order column when the kind's whitelist names
it and falls back to `updatedAt` otherwise, sorts, skips `(page - 1) * limit`
rows and returns at most `limit` of them together with the count of all
matching rows.

A record kind contributes its whitelist, the names of its own sortable
properties and how to read them; `createAt` and `updatedAt` are audit columns
every entity has. Ordering by a name that is not a property of the entity is a
database error.
 */
module Listing {
  import opened Outcomes
  import opened Ordering
  import opened Store

  /** What one record kind brings to its listing. */
  datatype Kind<!R> = Kind(
    orderFields: seq<string>,         // the `orderFields` whitelist
    columns: set<string>,             // the entity's own sortable properties
    field: (R, string) -> Value)      // the value of one of those properties

  const Fallback: string := "updatedAt"

  /** The column a listing is ordered by: the requested one when whitelisted, else `updatedAt`. */
  function OrderColumn(order: Option<string>, fields: seq<string>): (col: string)
    ensures col in fields || col == Fallback
    ensures order.Some? && order.value in fields ==> col == order.value
    ensures !(order.Some? && order.value in fields) ==> col == Fallback
  {
    if order.Some? && order.value in fields then order.value else Fallback
  }

  /** Choosing the column is idempotent once the fallback is itself whitelisted. */
  lemma OrderColumnIdempotent(order: Option<string>, fields: seq<string>)
    requires Fallback in fields
    ensures OrderColumn(Some(OrderColumn(order, fields)), fields) == OrderColumn(order, fields)
  {
  }

  predicate IsColumn<R>(kind: Kind<R>, col: string)
  {
    col == "createAt" || col == "updatedAt" || col in kind.columns
  }

  function ColumnValue<R>(kind: Kind<R>, row: Row<R>, col: string): Value
  {
    if col == "createAt" then Time(row.createAt)
    else if col == "updatedAt" then Time(row.updatedAt)
    else kind.field(row.data, col)
  }

  /** The sort key of a listed row for column `col`. */
  function KeyOf<R>(kind: Kind<R>, col: string): Entry<R> -> Value
  {
    (e: Entry<R>) => ColumnValue(kind, e.row, col)
  }

  function Min(a: int, b: int): int
  {
    if a <= b then a else b
  }

  /** How many rows `skip((page - 1) * limit)` passes over. */
  function Offset(page: int, limit: int): nat
    requires page >= 1 && limit >= 1
  {
    (page - 1) * limit
  }

  /** `skip(skip).take(limit)` over a listing. */
  function Window<T>(s: seq<T>, skip: nat, limit: nat): (w: seq<T>)
    ensures |w| == (if skip >= |s| then 0 else Min(limit, |s| - skip))
    ensures forall i :: 0 <= i < |w| ==> skip + i < |s| && w[i] == s[skip + i]
  {
    if skip >= |s| then [] else s[skip..Min(skip + limit, |s|)]
  }

  /** Pages tile the listing: row `i` is on page `i / limit + 1`, at position `i % limit`. */
  lemma WindowLocates<T>(s: seq<T>, limit: int, i: int)
    requires limit >= 1 && 0 <= i < |s|
    ensures i % limit < |Window(s, Offset(i / limit + 1, limit), limit)|
    ensures Window(s, Offset(i / limit + 1, limit), limit)[i % limit] == s[i]
  {
    assert Offset(i / limit + 1, limit) + i % limit == i;
  }

  lemma WindowFacts<T>(s: seq<T>, skip: nat, limit: nat, key: T -> Value, dir: Direction)
    requires Sorted(s, key, dir)
    ensures Sorted(Window(s, skip, limit), key, dir)
    ensures forall x :: x in Window(s, skip, limit) ==> x in s
  {
    if skip < |s| {
      SortedSlice(s, key, dir, skip, Min(skip + limit, |s|));
    }
  }

  /** One page of a listing and the total number of matching rows. */
  datatype Page<R> = Page(rows: seq<Entry<R>>, count: nat)

  /** No id is listed twice. */
  predicate UniqueIds<R>(rows: seq<Entry<R>>)
  {
    forall i, j :: 0 <= i < j < |rows| ==> rows[i].id != rows[j].id
  }

  /** What a page promises: the count of all matches, at most `limit` rows (fewer only past the last
      full page), every row a live matching row as stored and listed once, sorted by the chosen
      column in the chosen direction. */
  ghost predicate IsPage<R>(kind: Kind<R>, t: Table<R>, keep: R -> bool, page: int, limit: int,
                            sort: Option<string>, order: Option<string>, p: Page<R>)
    requires page >= 1 && limit >= 1
  {
    && p.count == |Matches(t, keep)|
    && |p.rows| <= limit
    && |p.rows| == (if Offset(page, limit) >= p.count then 0 else Min(limit, p.count - Offset(page, limit)))
    && (forall e :: e in p.rows ==> Listed(t, e, keep))
    && UniqueIds(p.rows)
    && Sorted(p.rows, KeyOf(kind, OrderColumn(order, kind.orderFields)), ParseSort(sort))
  }

  /** All matching rows, in the order the listing returns them before paging. */
  function Ordered<R>(kind: Kind<R>, t: Table<R>, scan: seq<Id>, keep: R -> bool,
                      sort: Option<string>, order: Option<string>): seq<Entry<R>>
  {
    Sort(Select(t, scan, keep), KeyOf(kind, OrderColumn(order, kind.orderFields)), ParseSort(sort))
  }

  /** A page as the listing returns it: a page in the sense of `IsPage`, holding exactly the rows
      `skip((page - 1) * limit).take(limit)` picks from the ordered matches. */
  ghost predicate IsListing<R>(kind: Kind<R>, t: Table<R>, scan: seq<Id>, keep: R -> bool, page: int, limit: int,
                               sort: Option<string>, order: Option<string>, p: Page<R>)
    requires page >= 1 && limit >= 1
  {
    && IsPage(kind, t, keep, page, limit, sort, order, p)
    && p.rows == Window(Ordered(kind, t, scan, keep, sort, order), Offset(page, limit), limit)
  }

  /** The listing: fails only when the chosen column is not a property of the entity. */
  function Paginate<R>(kind: Kind<R>, t: Table<R>, scan: seq<Id>, keep: R -> bool,
                       page: int, limit: int, sort: Option<string>, order: Option<string>): (r: Result<Page<R>>)
    requires page >= 1 && limit >= 1
    requires IsScan(t, scan)
    ensures r.Ok? <==> IsColumn(kind, OrderColumn(order, kind.orderFields))
    ensures r.Err? ==> r.error == UnknownColumn(OrderColumn(order, kind.orderFields))
    ensures r.Ok? ==> IsPage(kind, t, keep, page, limit, sort, order, r.value)
    ensures r.Ok? ==> r.value.rows == Window(Ordered(kind, t, scan, keep, sort, order), Offset(page, limit), limit)
  {
    var col := OrderColumn(order, kind.orderFields);
    if !IsColumn(kind, col) then Err(UnknownColumn(col))
    else
      var sorted := Ordered(kind, t, scan, keep, sort, order);
      OrderedFacts(kind, t, scan, keep, sort, order);
      WindowIsPage(kind, t, keep, page, limit, sort, order, sorted);
      Ok(Page(Window(sorted, Offset(page, limit), limit), |sorted|))
  }

  /** Any window of the sorted, duplicate-free list of all matches is a page. */
  lemma WindowIsPage<R>(kind: Kind<R>, t: Table<R>, keep: R -> bool, page: int, limit: int,
                        sort: Option<string>, order: Option<string>, s: seq<Entry<R>>)
    requires page >= 1 && limit >= 1
    requires |s| == |Matches(t, keep)|
    requires forall e :: e in s ==> Listed(t, e, keep)
    requires UniqueIds(s)
    requires Sorted(s, KeyOf(kind, OrderColumn(order, kind.orderFields)), ParseSort(sort))
    ensures IsPage(kind, t, keep, page, limit, sort, order, Page(Window(s, Offset(page, limit), limit), |s|))
  {
    WindowFacts(s, Offset(page, limit), limit, KeyOf(kind, OrderColumn(order, kind.orderFields)), ParseSort(sort));
    WindowUnique(s, Offset(page, limit), limit);
  }

  lemma WindowUnique<R>(s: seq<Entry<R>>, skip: nat, limit: nat)
    requires UniqueIds(s)
    ensures UniqueIds(Window(s, skip, limit))
  {
  }

  /** The sorted matches: as many as the query counts, each a listed row, no id twice. */
  lemma OrderedFacts<R>(kind: Kind<R>, t: Table<R>, scan: seq<Id>, keep: R -> bool,
                        sort: Option<string>, order: Option<string>)
    requires IsScan(t, scan)
    ensures var s := Ordered(kind, t, scan, keep, sort, order);
      && |s| == |Matches(t, keep)|
      && (forall e :: e in s ==> Listed(t, e, keep))
      && UniqueIds(s)
  {
    var sel := Select(t, scan, keep);
    var s := Ordered(kind, t, scan, keep, sort, order);
    CountSelected(t, scan, keep);
    assert |s| == |sel| by {
      assert |s| == |multiset(s)| == |multiset(sel)| == |sel|;
    }
    forall e | e in s ensures Listed(t, e, keep) {
      assert e in multiset(sel);
    }
    SelectDistinct(t, scan, keep);
    UniqueFromCounts(sel);
    PermutationKeepsUnique(t, keep, sel, s);
  }

  /** A sequence of listed rows with distinct ids holds each entry at most once. */
  lemma {:induction false} UniqueFromCounts<R>(sel: seq<Entry<R>>)
    requires UniqueIds(sel)
    ensures forall x :: multiset(sel)[x] <= 1
    decreases |sel|
  {
    if |sel| > 0 {
      var tail := sel[1..];
      assert sel == [sel[0]] + tail;
      assert UniqueIds(tail) by {
        forall a, b | 0 <= a < b < |tail| ensures tail[a].id != tail[b].id {
          assert tail[a] == sel[a + 1] && tail[b] == sel[b + 1];
        }
      }
      UniqueFromCounts(tail);
      assert sel[0] !in tail by {
        forall k | 0 <= k < |tail| ensures tail[k] != sel[0] {
          assert tail[k] == sel[k + 1];
        }
      }
    }
  }

  /** Reordering rows that are listed once each keeps their ids distinct. */
  lemma PermutationKeepsUnique<R>(t: Table<R>, keep: R -> bool, sel: seq<Entry<R>>, s: seq<Entry<R>>)
    requires forall x :: multiset(sel)[x] <= 1
    requires multiset(s) == multiset(sel)
    requires forall e :: e in s ==> Listed(t, e, keep)
    ensures UniqueIds(s)
  {
    forall i, j | 0 <= i < j < |s| ensures s[i].id != s[j].id {
      TwoPositions(s, i, j);
      assert s[i] in s && s[j] in s;
      assert s[i] == Entry(s[i].id, t[s[i].id]) && s[j] == Entry(s[j].id, t[s[j].id]);
    }
  }

  /** An entry found at two positions is counted at least twice. */
  lemma TwoPositions<T>(s: seq<T>, i: int, j: int)
    requires 0 <= i < j < |s|
    ensures s[i] == s[j] ==> multiset(s)[s[i]] >= 2
  {
    assert s == s[..i] + [s[i]] + s[i + 1..j] + [s[j]] + s[j + 1..];
  }

  /** Row `i` of a listing is on page `i / limit + 1`. */
  lemma PageOfPosition<T>(s: seq<T>, limit: int, i: int)
    requires limit >= 1 && 0 <= i < |s|
    ensures s[i] in Window(s, Offset(i / limit + 1, limit), limit)
  {
    WindowLocates(s, limit, i);
  }

  /** Every element of a listing is on some page of it. */
  lemma PageOfElement<T>(s: seq<T>, x: T, limit: int) returns (page: int)
    requires limit >= 1 && x in s
    ensures page >= 1 && x in Window(s, Offset(page, limit), limit)
  {
    var i :| 0 <= i < |s| && s[i] == x;
    PageOfPosition(s, limit, i);
    page := i / limit + 1;
  }

  /** `e` is among the rows of page `page` of the ordered listing. */
  ghost predicate OnPage<R>(kind: Kind<R>, t: Table<R>, scan: seq<Id>, keep: R -> bool, page: int,
                            limit: int, sort: Option<string>, order: Option<string>, e: Entry<R>)
    requires page >= 1 && limit >= 1
  {
    e in Window(Ordered(kind, t, scan, keep, sort, order), Offset(page, limit), limit)
  }

  lemma MatchIsOrdered<R>(kind: Kind<R>, t: Table<R>, scan: seq<Id>, keep: R -> bool,
                          sort: Option<string>, order: Option<string>, id: Id)
    requires IsScan(t, scan)
    requires id in Matches(t, keep)
    ensures id in t && Entry(id, t[id]) in Ordered(kind, t, scan, keep, sort, order)
  {
    var sel := Select(t, scan, keep);
    assert Entry(id, t[id]) in sel;
    assert Entry(id, t[id]) in multiset(sel);
  }

  /** The page a matching row is listed on. */
  lemma PageOfMatch<R>(kind: Kind<R>, t: Table<R>, scan: seq<Id>, keep: R -> bool,
                       limit: int, sort: Option<string>, order: Option<string>, id: Id) returns (page: int)
    requires limit >= 1 && IsScan(t, scan)
    requires IsColumn(kind, OrderColumn(order, kind.orderFields))
    requires id in Matches(t, keep)
    ensures page >= 1 && OnPage(kind, t, scan, keep, page, limit, sort, order, Entry(id, t[id]))
  {
    MatchIsOrdered(kind, t, scan, keep, sort, order, id);
    page := PageOfElement(Ordered(kind, t, scan, keep, sort, order), Entry(id, t[id]), limit);
  }

  /** Every matching row is on some page: the pages of a listing together cover all matches, provided
      every page request meets tied rows in the same order (one `scan` for all of them). */
  lemma EveryMatchIsListed<R>(kind: Kind<R>, t: Table<R>, scan: seq<Id>, keep: R -> bool,
                              limit: int, sort: Option<string>, order: Option<string>, id: Id)
    requires limit >= 1 && IsScan(t, scan)
    requires IsColumn(kind, OrderColumn(order, kind.orderFields))
    requires id in Matches(t, keep)
    ensures exists page :: page >= 1 && OnPage(kind, t, scan, keep, page, limit, sort, order, Entry(id, t[id]))
  {
    var page := PageOfMatch(kind, t, scan, keep, limit, sort, order, id);
  }
}

=== FILE: manufacture.dfy ===
/** ManufactureService: production runs drawn on a purchase. */
module ManufactureService {
  import opened Outcomes
  import opened Text
  import opened Ordering
  import opened Store
  import Listing
  import PurchaseService
  import Drawing

  /** A stored manufacture; it has no price column, and `purchase` is the id of the purchase it draws on. */
  datatype Manufacture = Manufacture(name: string, amount: real, manufactureDate: Option<int>, purchase: Id)

  /** A create request; every field is required. */
  datatype ManufactureInput = ManufactureInput(name: string, amount: real, date: int, purchaseId: Id)

  /** An update request: the purchase is always named; every other field is left out, sent as null,
      or sent with a value. */
  datatype ManufacturePatch = ManufacturePatch(name: Patch<string>, amount: Patch<real>, date: Patch<int>, purchaseId: Id)

  /** The request sends null for one of the NOT NULL columns, so the save fails. */
  predicate ClearsRequired(patch: ManufacturePatch)
  {
    patch.name.Clear? || patch.amount.Clear?
  }

  const NotFoundMessage: string := "Manufacture Not Found!!"

  const OrderFields: seq<string> := ["name", "amount", "manufactureDate", "createAt", "updatedAt"]

  function Field(m: Manufacture, col: string): Value
  {
    if col == "name" then Text(m.name)
    else if col == "amount" then Num(m.amount)
    else if col == "manufactureDate" then (if m.manufactureDate.Some? then Time(m.manufactureDate.value) else Null)
    else Null
  }

  const Kind: Listing.Kind<Manufacture> := Listing.Kind(OrderFields, {"name", "amount", "manufactureDate"}, Field)

  /** The name search box. */
  function Filter(search: Option<string>): Manufacture -> bool
  {
    (m: Manufacture) => TextFilter(Some(m.name), search)
  }

  /** getManufactureById / findById: only a live manufacture is found. */
  function GetById(manufactures: Table<Manufacture>, id: Id): (r: Result<Manufacture>)
    ensures r.Ok? <==> Live(manufactures, id)
    ensures r.Ok? ==> r.value == manufactures[id].data
    ensures r.Err? ==> r.error == NotFound(NotFoundMessage)
  {
    Get(manufactures, id, NotFoundMessage)
  }

  /** findAll: every live manufacture, once each. */
  function FindAll(manufactures: Table<Manufacture>, scan: seq<Id>): (rows: seq<Entry<Manufacture>>)
    requires IsScan(manufactures, scan)
    ensures forall e :: e in rows ==> Live(manufactures, e.id) && e.row == manufactures[e.id]
    ensures forall id :: Live(manufactures, id) ==> Entry(id, manufactures[id]) in rows
    ensures |rows| == |LiveIds(manufactures)|
  {
    Store.FindAll(manufactures, scan)
  }

  /** pagination: filtered by name; every whitelisted name is a column, so it never fails. */
  function Pagination(manufactures: Table<Manufacture>, scan: seq<Id>, page: int, limit: int,
                      sort: Option<string>, order: Option<string>, search: Option<string>): (p: Listing.Page<Manufacture>)
    requires page >= 1 && limit >= 1 && IsScan(manufactures, scan)
    ensures Listing.IsListing(Kind, manufactures, scan, Filter(search), page, limit, sort, order, p)
  {
    var r := Listing.Paginate(Kind, manufactures, scan, Filter(search), page, limit, sort, order);
    r.value
  }

  function FromInput(input: ManufactureInput): Manufacture
  {
    Manufacture(input.name, input.amount, Some(input.date), input.purchaseId)
  }

  /** create: passes exactly when the purchase is live and holds at least the amount manufactured; the
      not-found check comes first; on success the manufacture is stored, linked to that purchase. */
  function Create(manufactures: Table<Manufacture>, purchases: Drawing.Purchases, id: Id,
                  input: ManufactureInput, stamp: int): (r: Result<Table<Manufacture>>)
    requires id !in manufactures
    ensures r.Ok? <==> Drawing.Allows(purchases, input.purchaseId, input.amount)
    ensures r.Err? && !Live(purchases, input.purchaseId) ==> r.error == NotFound(PurchaseService.NotFoundMessage)
    ensures r.Err? && Live(purchases, input.purchaseId) ==> r.error == ExceedingPurchase
    ensures r.Ok? ==> Added(manufactures, id, FromInput(input), stamp, r.value)
    ensures r.Ok? ==> GetById(r.value, id).Ok? && GetById(r.value, id).value.purchase == input.purchaseId
  {
    var _ :- Drawing.Check(purchases, input.purchaseId, input.amount);
    Ok(Add(manufactures, id, FromInput(input), stamp))
  }

  /** `{ ...saved, ...dto }`, then the save: a NOT NULL column sent as null fails. */
  function Merge(m: Manufacture, patch: ManufacturePatch): (r: Result<Manufacture>)
    ensures r.Err? <==> ClearsRequired(patch)
    ensures r.Err? ==> r.error == NotNullViolation
  {
    if ClearsRequired(patch) then Err(NotNullViolation)
    else Ok(Manufacture(Required(patch.name, m.name), Required(patch.amount, m.amount), Apply(patch.date, m.manufactureDate), patch.purchaseId))
  }

  /** `merged` is what the save stores: the named purchase, every field left out as stored, every
      field sent as null NULL, every other field the value sent. */
  ghost predicate Merged(stored: Manufacture, patch: ManufacturePatch, merged: Manufacture)
  {
    && (patch.name.Keep? ==> merged.name == stored.name)
    && (patch.name.Set? ==> merged.name == patch.name.value)
    && (patch.amount.Keep? ==> merged.amount == stored.amount)
    && (patch.amount.Set? ==> merged.amount == patch.amount.value)
    && (patch.date.Keep? ==> merged.manufactureDate == stored.manufactureDate)
    && (patch.date.Clear? ==> merged.manufactureDate == None)
    && (patch.date.Set? ==> merged.manufactureDate == Some(patch.date.value))
    && merged.purchase == patch.purchaseId
  }

  /** update: the manufacture must be live ("Manufacture Not Found!!" first), then the named purchase
      must be live; last the save refuses a NOT NULL column sent as null. The amount is not checked
      against the purchase again. */
  function Update(manufactures: Table<Manufacture>, purchases: Drawing.Purchases, id: Id, patch: ManufacturePatch)
    : (r: Result<Table<Manufacture>>)
    ensures r.Ok? <==> Live(manufactures, id) && Live(purchases, patch.purchaseId) && !ClearsRequired(patch)
    ensures r.Err? && !Live(manufactures, id) ==> r.error == NotFound(NotFoundMessage)
    ensures r.Err? && Live(manufactures, id) && !Live(purchases, patch.purchaseId) ==>
      r.error == NotFound(PurchaseService.NotFoundMessage)
    ensures r.Err? && Live(manufactures, id) && Live(purchases, patch.purchaseId) ==> r.error == NotNullViolation
    ensures r.Ok? ==> Replaced(manufactures, id, Merge(manufactures[id].data, patch).value, r.value)
    ensures r.Ok? ==> GetById(r.value, id).Ok? && Merged(manufactures[id].data, patch, GetById(r.value, id).value)
  {
    var saved :- GetById(manufactures, id);
    var _ :- PurchaseService.GetById(purchases, patch.purchaseId);
    var merged :- Merge(saved, patch);
    Ok(Put(manufactures, id, merged))
  }

  /** remove: a soft delete of a live manufacture; afterwards it is no longer found. */
  function Remove(manufactures: Table<Manufacture>, id: Id): (r: Result<Table<Manufacture>>)
    ensures r.Ok? <==> Live(manufactures, id)
    ensures r.Err? ==> r.error == NotFound(NotFoundMessage)
    ensures r.Ok? ==> SoftDeleted(manufactures, id, r.value) && GetById(r.value, id).Err?
  {
    SoftDelete(manufactures, id, NotFoundMessage)
  }

  /** The guard does not look at earlier manufactures: whatever the table holds, the same request gets the same verdict. */
  lemma CreateIgnoresEarlierManufactures(manufactures1: Table<Manufacture>, manufactures2: Table<Manufacture>,
                                         purchases: Drawing.Purchases, id: Id, input: ManufactureInput, stamp: int)
    requires id !in manufactures1 && id !in manufactures2
    ensures Create(manufactures1, purchases, id, input, stamp).Ok? == Create(manufactures2, purchases, id, input, stamp).Ok?
  {
  }
}

=== FILE: ordering.dfy ===
/** Sort direction, column values and the ordering a page is returned in.

Every listing sorts ascending only when the request says exactly ASC, and
descending otherwise, then orders by the chosen column. The database's comparison of
dates, decimals and collated text is not reproduced: column values are compared
by a fixed total order (NULL first, as the database does in ascending order;
text by character code), and a page is sorted by the chosen column in the
chosen direction.
 */
module Ordering {
  import opened Outcomes

  datatype Direction = Asc | Desc

  /** Normalise the `sort` query parameter: only the exact text "ASC" means ascending. */
  function ParseSort(sort: Option<string>): (d: Direction)
    ensures d == Asc <==> sort == Some("ASC")
  {
    if sort.Some? then (if sort.value == "ASC" then Asc else Desc) else Desc
  }

  function SortName(d: Direction): string
  {
    if d == Asc then "ASC" else "DESC"
  }

  /** Normalising is idempotent: feeding the normalised name back in gives the same direction. */
  lemma ParseSortIdempotent(sort: Option<string>)
    ensures ParseSort(Some(SortName(ParseSort(sort)))) == ParseSort(sort)
  {
  }

  /** The value of one column of one row, as far as ordering is concerned. */
  datatype Value =
    | Null            // a nullable date column holding NULL
    | Num(n: real)    // decimal(20,6) amounts and prices
    | Time(t: int)    // timestamps, as an abstract instant
    | Text(s: string) // varchar columns

  /** Lexicographic order on text by character code. */
  predicate TextLe(a: string, b: string)
    decreases |a|
  {
    if |a| == 0 then true
    else if |b| == 0 then false
    else if a[0] != b[0] then a[0] < b[0]
    else TextLe(a[1..], b[1..])
  }

  lemma {:induction false} TextLeTotal(a: string, b: string)
    ensures TextLe(a, b) || TextLe(b, a)
    decreases |a|
  {
    if |a| > 0 && |b| > 0 && a[0] == b[0] {
      TextLeTotal(a[1..], b[1..]);
    }
  }

  lemma {:induction false} TextLeTransitive(a: string, b: string, c: string)
    requires TextLe(a, b) && TextLe(b, c)
    ensures TextLe(a, c)
    decreases |a|
  {
    if |a| > 0 && |b| > 0 && |c| > 0 && a[0] == b[0] && b[0] == c[0] {
      TextLeTransitive(a[1..], b[1..], c[1..]);
    }
  }

  function Rank(v: Value): nat
  {
    match v
    case Null => 0
    case Num(_) => 1
    case Time(_) => 2
    case Text(_) => 3
  }

  /** The ascending order on column values. */
  predicate ValueLe(a: Value, b: Value)
  {
    if Rank(a) != Rank(b) then Rank(a) < Rank(b)
    else match a
      case Null => true
      case Num(x) => x <= b.n
      case Time(x) => x <= b.t
      case Text(x) => TextLe(x, b.s)
  }

  /** `a` may come before `b` in a listing sorted in direction `dir`. */
  predicate Precedes(a: Value, b: Value, dir: Direction)
  {
    if dir == Asc then ValueLe(a, b) else ValueLe(b, a)
  }

  lemma PrecedesTotal(a: Value, b: Value, dir: Direction)
    ensures Precedes(a, b, dir) || Precedes(b, a, dir)
  {
    if a.Text? && b.Text? {
      TextLeTotal(a.s, b.s);
    }
  }

  lemma PrecedesTransitive(a: Value, b: Value, c: Value, dir: Direction)
    requires Precedes(a, b, dir) && Precedes(b, c, dir)
    ensures Precedes(a, c, dir)
  {
    if a.Text? && b.Text? && c.Text? {
      if dir == Asc {
        TextLeTransitive(a.s, b.s, c.s);
      } else {
        TextLeTransitive(c.s, b.s, a.s);
      }
    }
  }

  /** A listing in the order `orderBy(column, dir)` asks for. */
  predicate Sorted<T>(s: seq<T>, key: T -> Value, dir: Direction)
  {
    forall i, j :: 0 <= i < j < |s| ==> Precedes(key(s[i]), key(s[j]), dir)
  }

  lemma SortedSlice<T>(s: seq<T>, key: T -> Value, dir: Direction, lo: int, hi: int)
    requires Sorted(s, key, dir)
    requires 0 <= lo <= hi <= |s|
    ensures Sorted(s[lo..hi], key, dir)
  {
    forall i, j | 0 <= i < j < hi - lo
      ensures Precedes(key(s[lo..hi][i]), key(s[lo..hi][j]), dir)
    {
      assert s[lo..hi][i] == s[lo + i] && s[lo..hi][j] == s[lo + j];
    }
  }

  /** Prepending an element that precedes every element keeps a listing sorted. */
  lemma ConsSorted<T>(x: T, s: seq<T>, key: T -> Value, dir: Direction)
    requires Sorted(s, key, dir)
    requires forall y :: y in s ==> Precedes(key(x), key(y), dir)
    ensures Sorted([x] + s, key, dir)
  {
    forall i, j | 0 <= i < j < |[x] + s|
      ensures Precedes(key(([x] + s)[i]), key(([x] + s)[j]), dir)
    {
      if i == 0 {
        assert ([x] + s)[j] == s[j - 1];
        assert s[j - 1] in s;
      } else {
        assert ([x] + s)[i] == s[i - 1] && ([x] + s)[j] == s[j - 1];
      }
    }
  }

  /** Insert one element into a sorted listing. */
  function Insert<T>(x: T, s: seq<T>, key: T -> Value, dir: Direction): (r: seq<T>)
    requires Sorted(s, key, dir)
    ensures Sorted(r, key, dir)
    ensures multiset(r) == multiset(s) + multiset{x}
    decreases |s|
  {
    if |s| == 0 then
      [x]
    else if Precedes(key(x), key(s[0]), dir) then
      HeadPrecedesAll(x, s, key, dir);
      ConsSorted(x, s, key, dir);
      [x] + s
    else
      PrecedesTotal(key(x), key(s[0]), dir);
      SortedSlice(s, key, dir, 1, |s|);
      var rest := Insert(x, s[1..], key, dir);
      assert s == [s[0]] + s[1..];
      forall y | y in rest
        ensures Precedes(key(s[0]), key(y), dir)
      {
        assert y in multiset(rest);
        if y != x {
          assert y in multiset(s[1..]);
          var k :| 1 <= k < |s| && s[k] == y;
        }
      }
      ConsSorted(s[0], rest, key, dir);
      [s[0]] + rest
  }

  lemma HeadPrecedesAll<T>(x: T, s: seq<T>, key: T -> Value, dir: Direction)
    requires Sorted(s, key, dir)
    requires |s| > 0 && Precedes(key(x), key(s[0]), dir)
    ensures forall y :: y in s ==> Precedes(key(x), key(y), dir)
  {
    forall y | y in s
      ensures Precedes(key(x), key(y), dir)
    {
      var k :| 0 <= k < |s| && s[k] == y;
      if k > 0 {
        PrecedesTransitive(key(x), key(s[0]), key(s[k]), dir);
      }
    }
  }

  /** Order a listing by `key` in direction `dir`: a sorted permutation of the input. */
  function Sort<T>(s: seq<T>, key: T -> Value, dir: Direction): (r: seq<T>)
    ensures Sorted(r, key, dir)
    ensures multiset(r) == multiset(s)
    decreases |s|
  {
    if |s| == 0 then []
    else
      assert s == [s[0]] + s[1..];
      Insert(s[0], Sort(s[1..], key, dir), key, dir)
  }

  /** Insertion looks at an element only through its key. */
  lemma {:induction false} InsertSameKeys<T>(x: T, s: seq<T>, k1: T -> Value, k2: T -> Value, dir: Direction)
    requires forall y :: k1(y) == k2(y)
    requires Sorted(s, k1, dir)
    ensures Sorted(s, k2, dir)
    ensures Insert(x, s, k1, dir) == Insert(x, s, k2, dir)
    decreases |s|
  {
    if |s| > 0 && !Precedes(k1(x), k1(s[0]), dir) {
      SortedSlice(s, k1, dir, 1, |s|);
      InsertSameKeys(x, s[1..], k1, k2, dir);
    }
  }

  /** Two keys that agree on every element order a listing the same way. */
  lemma {:induction false} SortSameKeys<T>(s: seq<T>, k1: T -> Value, k2: T -> Value, dir: Direction)
    requires forall y :: k1(y) == k2(y)
    ensures Sort(s, k1, dir) == Sort(s, k2, dir)
    decreases |s|
  {
    if |s| > 0 {
      SortSameKeys(s[1..], k1, k2, dir);
      InsertSameKeys(s[0], Sort(s[1..], k1, dir), k1, k2, dir);
    }
  }

  /** The elements of `s` whose key is `v`, in the order `s` holds them. */
  function KeyClass<T>(s: seq<T>, key: T -> Value, v: Value): seq<T>
    decreases |s|
  {
    if |s| == 0 then []
    else (if key(s[0]) == v then [s[0]] else []) + KeyClass(s[1..], key, v)
  }

  lemma KeyClassCons<T>(y: T, r: seq<T>, key: T -> Value, v: Value)
    ensures KeyClass([y] + r, key, v) == (if key(y) == v then [y] else []) + KeyClass(r, key, v)
  {
  }

  /** An element that does not precede the head is inserted behind it. */
  lemma InsertPastHead<T>(x: T, s: seq<T>, key: T -> Value, dir: Direction)
    requires Sorted(s, key, dir) && |s| > 0 && !Precedes(key(x), key(s[0]), dir)
    ensures Sorted(s[1..], key, dir)
    ensures Insert(x, s, key, dir) == [s[0]] + Insert(x, s[1..], key, dir)
  {
  }

  /** An element that precedes the head, or meets an empty listing, is inserted in front. */
  lemma InsertAtHead<T>(x: T, s: seq<T>, key: T -> Value, dir: Direction)
    requires Sorted(s, key, dir) && (|s| == 0 || Precedes(key(x), key(s[0]), dir))
    ensures Insert(x, s, key, dir) == [x] + s
  {
  }

  lemma SwapFronts<T>(a: seq<T>, b: seq<T>, tail: seq<T>)
    requires a == [] || b == []
    ensures a + (b + tail) == b + (a + tail)
  {
  }

  /** Insertion puts the new element in front of the elements that tie with it. */
  lemma {:induction false} InsertStable<T>(x: T, s: seq<T>, key: T -> Value, dir: Direction, v: Value)
    requires Sorted(s, key, dir)
    ensures KeyClass(Insert(x, s, key, dir), key, v) == (if key(x) == v then [x] else []) + KeyClass(s, key, v)
    decreases |s|
  {
    var cx: seq<T> := if key(x) == v then [x] else [];
    if |s| == 0 || Precedes(key(x), key(s[0]), dir) {
      InsertAtHead(x, s, key, dir);
      KeyClassCons(x, s, key, v);
    } else {
      var c0: seq<T> := if key(s[0]) == v then [s[0]] else [];
      var rest := Insert(x, s[1..], key, dir);
      PrecedesTotal(key(x), key(x), dir);
      InsertPastHead(x, s, key, dir);
      InsertStable(x, s[1..], key, dir, v);
      KeyClassCons(s[0], rest, key, v);
      KeyClassCons(s[0], s[1..], key, v);
      assert [s[0]] + s[1..] == s;
      SwapFronts(c0, cx, KeyClass(s[1..], key, v));
    }
  }

  /** The sort is stable: for every key, the elements with that key keep the order they came in. */
  lemma {:induction false} SortStable<T>(s: seq<T>, key: T -> Value, dir: Direction, v: Value)
    ensures KeyClass(Sort(s, key, dir), key, v) == KeyClass(s, key, v)
    decreases |s|
  {
    if |s| > 0 {
      SortStable(s[1..], key, dir, v);
      InsertStable(s[0], Sort(s[1..], key, dir), key, dir, v);
    }
  }

  /** Two elements with equal keys keep the order they came in. */
  lemma SortKeepsTies<T>(x: T, y: T, key: T -> Value, dir: Direction)
    requires key(x) == key(y)
    ensures Sort([x, y], key, dir) == [x, y]
  {
    PrecedesTotal(key(x), key(x), dir);
    assert [x, y][1..] == [y];
    assert Sort([y], key, dir) == [y] by { assert [y][1..] == []; }
  }
}

=== FILE: outcomes.dfy ===
/** Optional values and the failure-carrying result every service call returns.

Every service method rethrows any failure wrapped in a system exception that
carries the original cause; `Error` names those causes.
 */
module Outcomes {

  /** An optional value: a search box, an order/sort query parameter, a nullable column. */
  datatype Option<+T> = None | Some(value: T)

  /** One field of an update body. The update pipe skips validation of a property that is missing
      or null alike, so a field may be left out, sent as null, or sent with a value; the
      `{ ...saved, ...dto }` spread then keeps, clears or replaces the stored column. */
  datatype Patch<+T> = Keep | Clear | Set(value: T)

  /** The column after the spread; `stored` is None for a NULL column. */
  function Apply<T>(p: Patch<T>, stored: Option<T>): Option<T>
  {
    match p
    case Keep => stored
    case Clear => None
    case Set(v) => Some(v)
  }

  /** A NOT NULL column after a spread that does not send it as null. */
  function Required<T>(p: Patch<T>, stored: T): T
    requires !p.Clear?
  {
    if p.Set? then p.value else stored
  }

  /** One field of two update bodies sent one after the other: the later one wins unless it leaves the field out. */
  function Then<T>(first: Patch<T>, second: Patch<T>): Patch<T>
  {
    if second.Keep? then first else second
  }

  /** Two spreads in a row are the spread of the composed field. */
  lemma ApplyThen<T>(first: Patch<T>, second: Patch<T>, stored: Option<T>)
    ensures Apply(second, Apply(first, stored)) == Apply(Then(first, second), stored)
  {
  }

  /** Why a service call fails. */
  datatype Error =
    | NotFound(message: string)    // exceptionService.notFound(…) on a missing or inactive id
    | ExceedingPurchase            // 'You are exceeding purchase amount'
    | UnknownColumn(column: string) // ORDER BY names a property the entity does not have
    | NotNullViolation             // the save writes NULL into a NOT NULL column

  /** The outcome of a service call; usable with `:-`. */
  datatype Result<+T> = Ok(value: T) | Err(error: Error) {

    predicate IsFailure() {
      Err?
    }

    function PropagateFailure<U>(): Result<U>
      requires Err?
    {
      Err(error)
    }

    function Extract(): T
      requires Ok?
    {
      value
    }
  }
}

=== FILE: purchase.dfy ===
/** PurchaseService: the stock bought in, which sells and manufactures later draw on.

The entity's date property is `purchaseDate`, but the listing's whitelist and the
request body both spell it `puchaseDate`. The members suffixed `AsWritten` model
that spelling; the others use the entity's name and are what the rest of the
model builds on.
 */
module PurchaseService {
  import opened Outcomes
  import opened Text
  import opened Ordering
  import opened Store
  import Listing

  /** A stored purchase; `purchaseDate` is a nullable timestamp. */
  datatype Purchase = Purchase(name: string, amount: real, price: real, purchaseDate: Option<int>)

  /** A create request; every field is required. */
  datatype PurchaseInput = PurchaseInput(name: string, price: real, amount: real, date: int)

  /** An update request: each field left out, sent as null, or sent with a value. */
  datatype PurchasePatch = PurchasePatch(name: Patch<string>, price: Patch<real>, amount: Patch<real>, date: Patch<int>)

  /** The request sends null for one of the NOT NULL columns, so the save fails. */
  predicate ClearsRequired(patch: PurchasePatch)
  {
    patch.name.Clear? || patch.price.Clear? || patch.amount.Clear?
  }

  const NotFoundMessage: string := "Purchase Not Found!!"

  const OrderFieldsAsWritten: seq<string> := ["name", "price", "amount", "puchaseDate", "createAt", "updatedAt"]

  const OrderFields: seq<string> := ["name", "price", "amount", "purchaseDate", "createAt", "updatedAt"]

  function Field(p: Purchase, col: string): Value
  {
    if col == "name" then Text(p.name)
    else if col == "price" then Num(p.price)
    else if col == "amount" then Num(p.amount)
    else if col == "purchaseDate" then (if p.purchaseDate.Some? then Time(p.purchaseDate.value) else Null)
    else Null
  }

  const Columns: set<string> := {"name", "price", "amount", "purchaseDate"}

  const KindAsWritten: Listing.Kind<Purchase> := Listing.Kind(OrderFieldsAsWritten, Columns, Field)

  const Kind: Listing.Kind<Purchase> := Listing.Kind(OrderFields, Columns, Field)

  /** The name search box. */
  function Filter(search: Option<string>): Purchase -> bool
  {
    (p: Purchase) => TextFilter(Some(p.name), search)
  }

  /** getPurchaseById / findById: only a live purchase is found. */
  function GetById(purchases: Table<Purchase>, id: Id): (r: Result<Purchase>)
    ensures r.Ok? <==> Live(purchases, id)
    ensures r.Ok? ==> r.value == purchases[id].data
    ensures r.Err? ==> r.error == NotFound(NotFoundMessage)
  {
    Get(purchases, id, NotFoundMessage)
  }

  /** findAll: every live purchase, once each. */
  function FindAll(purchases: Table<Purchase>, scan: seq<Id>): (rows: seq<Entry<Purchase>>)
    requires IsScan(purchases, scan)
    ensures forall e :: e in rows ==> Live(purchases, e.id) && e.row == purchases[e.id]
    ensures forall id :: Live(purchases, id) ==> Entry(id, purchases[id]) in rows
    ensures |rows| == |LiveIds(purchases)|
  {
    Store.FindAll(purchases, scan)
  }

  /** pagination as written: asking for the whitelisted `puchaseDate` orders by a property the entity
      does not have, and the query fails; every other request yields a page. */
  function PaginationAsWritten(purchases: Table<Purchase>, scan: seq<Id>, page: int, limit: int,
                               sort: Option<string>, order: Option<string>, search: Option<string>)
    : (r: Result<Listing.Page<Purchase>>)
    requires page >= 1 && limit >= 1 && IsScan(purchases, scan)
    ensures r.Err? <==> order == Some("puchaseDate")
    ensures r.Err? ==> r.error == UnknownColumn("puchaseDate")
    ensures r.Ok? ==> Listing.IsListing(KindAsWritten, purchases, scan, Filter(search), page, limit, sort, order, r.value)
  {
    Listing.Paginate(KindAsWritten, purchases, scan, Filter(search), page, limit, sort, order)
  }

  /** pagination with the whitelist naming the entity's `purchaseDate`: never fails. */
  function Pagination(purchases: Table<Purchase>, scan: seq<Id>, page: int, limit: int,
                      sort: Option<string>, order: Option<string>, search: Option<string>)
    : (p: Listing.Page<Purchase>)
    requires page >= 1 && limit >= 1 && IsScan(purchases, scan)
    ensures Listing.IsListing(Kind, purchases, scan, Filter(search), page, limit, sort, order, p)
    ensures order == Some("purchaseDate") ==>
      Sorted(p.rows, Listing.KeyOf(Kind, "purchaseDate"), ParseSort(sort))
  {
    var r := Listing.Paginate(Kind, purchases, scan, Filter(search), page, limit, sort, order);
    r.value
  }

  /** As written, a request to order by the purchase date fails under the whitelisted spelling and is
      silently ordered by `updatedAt` under the entity's spelling. */
  lemma PurchaseDateOrderAsWritten(purchases: Table<Purchase>, scan: seq<Id>, page: int, limit: int,
                                   sort: Option<string>, search: Option<string>)
    requires page >= 1 && limit >= 1 && IsScan(purchases, scan)
    ensures PaginationAsWritten(purchases, scan, page, limit, sort, Some("puchaseDate"), search).Err?
    ensures Listing.OrderColumn(Some("purchaseDate"), OrderFieldsAsWritten) == "updatedAt"
    ensures Listing.OrderColumn(Some("purchaseDate"), OrderFields) == "purchaseDate"
  {
  }

  /** Away from the date column the correction changes nothing: both listings return the same page. */
  lemma PaginationAgreesAwayFromDate(purchases: Table<Purchase>, scan: seq<Id>, page: int, limit: int,
                                     sort: Option<string>, order: Option<string>, search: Option<string>)
    requires page >= 1 && limit >= 1 && IsScan(purchases, scan)
    requires order != Some("puchaseDate") && order != Some("purchaseDate")
    ensures PaginationAsWritten(purchases, scan, page, limit, sort, order, search)
         == Ok(Pagination(purchases, scan, page, limit, sort, order, search))
  {
    assert Listing.OrderColumn(order, OrderFieldsAsWritten) == Listing.OrderColumn(order, OrderFields);
    var col := Listing.OrderColumn(order, OrderFields);
    SortSameKeys(Select(purchases, scan, Filter(search)), Listing.KeyOf(KindAsWritten, col), Listing.KeyOf(Kind, col), ParseSort(sort));
    assert Listing.Ordered(KindAsWritten, purchases, scan, Filter(search), sort, order)
        == Listing.Ordered(Kind, purchases, scan, Filter(search), sort, order);
  }

  /** The stored record the as-written create makes: the request's `puchaseDate` is not an entity
      property, so the date column stays NULL. */
  function FromInputAsWritten(input: PurchaseInput): Purchase
  {
    Purchase(input.name, input.amount, input.price, None)
  }

  function FromInput(input: PurchaseInput): Purchase
  {
    Purchase(input.name, input.amount, input.price, Some(input.date))
  }

  /** create as written: a new live purchase whose date is never recorded. */
  function CreateAsWritten(purchases: Table<Purchase>, id: Id, input: PurchaseInput, stamp: int): (t: Table<Purchase>)
    requires id !in purchases
    ensures Added(purchases, id, FromInputAsWritten(input), stamp, t)
    ensures GetById(t, id).Ok? && GetById(t, id).value.purchaseDate == None
  {
    Add(purchases, id, FromInputAsWritten(input), stamp)
  }

  /** create with the date stored under the entity's property: reading it back gives what was submitted. */
  function Create(purchases: Table<Purchase>, id: Id, input: PurchaseInput, stamp: int): (t: Table<Purchase>)
    requires id !in purchases
    ensures Added(purchases, id, FromInput(input), stamp, t)
    ensures GetById(t, id).Ok?
    ensures var p := GetById(t, id).value;
      p.name == input.name && p.amount == input.amount && p.price == input.price && p.purchaseDate == Some(input.date)
  {
    Add(purchases, id, FromInput(input), stamp)
  }

  /** `{ ...saved, ...dto }` as written: the date in the request never reaches the entity's property. */
  function MergeAsWritten(p: Purchase, patch: PurchasePatch): (r: Result<Purchase>)
    ensures r.Err? <==> ClearsRequired(patch)
    ensures r.Err? ==> r.error == NotNullViolation
  {
    if ClearsRequired(patch) then Err(NotNullViolation)
    else Ok(Purchase(Required(patch.name, p.name), Required(patch.amount, p.amount), Required(patch.price, p.price),
                     p.purchaseDate))
  }

  function Merge(p: Purchase, patch: PurchasePatch): (r: Result<Purchase>)
    ensures r.Err? <==> ClearsRequired(patch)
    ensures r.Err? ==> r.error == NotNullViolation
  {
    if ClearsRequired(patch) then Err(NotNullViolation)
    else Ok(Purchase(Required(patch.name, p.name), Required(patch.amount, p.amount), Required(patch.price, p.price),
                     Apply(patch.date, p.purchaseDate)))
  }

  /** `merged` is what the save stores: every field left out is the stored one, every field sent as
      null is NULL, every other field is the value sent. */
  ghost predicate Merged(stored: Purchase, patch: PurchasePatch, merged: Purchase)
  {
    && (patch.name.Keep? ==> merged.name == stored.name)
    && (patch.name.Set? ==> merged.name == patch.name.value)
    && (patch.price.Keep? ==> merged.price == stored.price)
    && (patch.price.Set? ==> merged.price == patch.price.value)
    && (patch.amount.Keep? ==> merged.amount == stored.amount)
    && (patch.amount.Set? ==> merged.amount == patch.amount.value)
    && (patch.date.Keep? ==> merged.purchaseDate == stored.purchaseDate)
    && (patch.date.Clear? ==> merged.purchaseDate == None)
    && (patch.date.Set? ==> merged.purchaseDate == Some(patch.date.value))
  }

  /** update as written: only a live purchase, and no NOT NULL column sent as null; the stored date
      survives any request. */
  function UpdateAsWritten(purchases: Table<Purchase>, id: Id, patch: PurchasePatch): (r: Result<Table<Purchase>>)
    ensures r.Ok? <==> Live(purchases, id) && !ClearsRequired(patch)
    ensures r.Err? && !Live(purchases, id) ==> r.error == NotFound(NotFoundMessage)
    ensures r.Err? && Live(purchases, id) ==> r.error == NotNullViolation
    ensures r.Ok? ==> Replaced(purchases, id, MergeAsWritten(purchases[id].data, patch).value, r.value)
    ensures r.Ok? ==> r.value[id].data.purchaseDate == purchases[id].data.purchaseDate
  {
    var saved :- GetById(purchases, id);
    var merged :- MergeAsWritten(saved, patch);
    Ok(Put(purchases, id, merged))
  }

  /** update: only a live purchase, and no NOT NULL column sent as null; fields sent, the date included,
      replace or clear the stored ones. */
  function Update(purchases: Table<Purchase>, id: Id, patch: PurchasePatch): (r: Result<Table<Purchase>>)
    ensures r.Ok? <==> Live(purchases, id) && !ClearsRequired(patch)
    ensures r.Err? && !Live(purchases, id) ==> r.error == NotFound(NotFoundMessage)
    ensures r.Err? && Live(purchases, id) ==> r.error == NotNullViolation
    ensures r.Ok? ==> Replaced(purchases, id, Merge(purchases[id].data, patch).value, r.value)
    ensures r.Ok? ==> GetById(r.value, id).Ok? && Merged(purchases[id].data, patch, GetById(r.value, id).value)
  {
    var saved :- GetById(purchases, id);
    var merged :- Merge(saved, patch);
    Ok(Put(purchases, id, merged))
  }

  /** As written, no request changes a purchase's date; with the corrected merge a date sent is stored
      and a null sent clears it. */
  lemma UpdateDateAsWritten(purchases: Table<Purchase>, id: Id, patch: PurchasePatch)
    requires Live(purchases, id) && !ClearsRequired(patch) && !patch.date.Keep?
    ensures UpdateAsWritten(purchases, id, patch).Ok? && Update(purchases, id, patch).Ok?
    ensures UpdateAsWritten(purchases, id, patch).value[id].data.purchaseDate == purchases[id].data.purchaseDate
    ensures Update(purchases, id, patch).value[id].data.purchaseDate
         == (if patch.date.Set? then Some(patch.date.value) else None)
  {
  }

  /** remove: a soft delete of a live purchase; afterwards it is no longer found. */
  function Remove(purchases: Table<Purchase>, id: Id): (r: Result<Table<Purchase>>)
    ensures r.Ok? <==> Live(purchases, id)
    ensures r.Err? ==> r.error == NotFound(NotFoundMessage)
    ensures r.Ok? ==> SoftDeleted(purchases, id, r.value) && GetById(r.value, id).Err?
  {
    SoftDelete(purchases, id, NotFoundMessage)
  }
}

=== FILE: sell.dfy ===
/** SellService: sales drawn on a purchase. */
module SellService {
  import opened Outcomes
  import opened Text
  import opened Ordering
  import opened Store
  import Listing
  import PurchaseService
  import Drawing

  /** A stored sell; `purchase` is the id of the purchase it was drawn on. */
  datatype Sell = Sell(name: string, price: real, amount: real, sellDate: Option<int>, purchase: Id)

  /** A create request; every field is required. */
  datatype SellInput = SellInput(name: string, price: real, amount: real, date: int, purchaseId: Id)

  /** An update request: the purchase is always named; every other field is left out, sent as null,
      or sent with a value. */
  datatype SellPatch = SellPatch(name: Patch<string>, price: Patch<real>, amount: Patch<real>, date: Patch<int>, purchaseId: Id)

  /** The request sends null for one of the NOT NULL columns, so the save fails. */
  predicate ClearsRequired(patch: SellPatch)
  {
    patch.name.Clear? || patch.price.Clear? || patch.amount.Clear?
  }

  const NotFoundMessage: string := "Sell Not Found!!"

  const OrderFields: seq<string> := ["name", "price", "amount", "sellDate", "createAt", "updatedAt"]

  function Field(s: Sell, col: string): Value
  {
    if col == "name" then Text(s.name)
    else if col == "price" then Num(s.price)
    else if col == "amount" then Num(s.amount)
    else if col == "sellDate" then (if s.sellDate.Some? then Time(s.sellDate.value) else Null)
    else Null
  }

  const Kind: Listing.Kind<Sell> := Listing.Kind(OrderFields, {"name", "price", "amount", "sellDate"}, Field)

  /** The name search box. */
  function Filter(search: Option<string>): Sell -> bool
  {
    (s: Sell) => TextFilter(Some(s.name), search)
  }

  /** getSellById / findById: only a live sell is found. */
  function GetById(sells: Table<Sell>, id: Id): (r: Result<Sell>)
    ensures r.Ok? <==> Live(sells, id)
    ensures r.Ok? ==> r.value == sells[id].data
    ensures r.Err? ==> r.error == NotFound(NotFoundMessage)
  {
    Get(sells, id, NotFoundMessage)
  }

  /** findAll: every live sell, once each. */
  function FindAll(sells: Table<Sell>, scan: seq<Id>): (rows: seq<Entry<Sell>>)
    requires IsScan(sells, scan)
    ensures forall e :: e in rows ==> Live(sells, e.id) && e.row == sells[e.id]
    ensures forall id :: Live(sells, id) ==> Entry(id, sells[id]) in rows
    ensures |rows| == |LiveIds(sells)|
  {
    Store.FindAll(sells, scan)
  }

  /** pagination: filtered by name; every whitelisted name is a column, so it never fails. */
  function Pagination(sells: Table<Sell>, scan: seq<Id>, page: int, limit: int,
                      sort: Option<string>, order: Option<string>, search: Option<string>): (p: Listing.Page<Sell>)
    requires page >= 1 && limit >= 1 && IsScan(sells, scan)
    ensures Listing.IsListing(Kind, sells, scan, Filter(search), page, limit, sort, order, p)
  {
    var r := Listing.Paginate(Kind, sells, scan, Filter(search), page, limit, sort, order);
    r.value
  }

  function FromInput(input: SellInput): Sell
  {
    Sell(input.name, input.price, input.amount, Some(input.date), input.purchaseId)
  }

  /** create: passes exactly when the purchase is live and holds at least the amount sold; the not-found
      check comes first; on success the sell is stored, linked to that purchase. */
  function Create(sells: Table<Sell>, purchases: Drawing.Purchases, id: Id, input: SellInput, stamp: int)
    : (r: Result<Table<Sell>>)
    requires id !in sells
    ensures r.Ok? <==> Drawing.Allows(purchases, input.purchaseId, input.amount)
    ensures r.Err? && !Live(purchases, input.purchaseId) ==> r.error == NotFound(PurchaseService.NotFoundMessage)
    ensures r.Err? && Live(purchases, input.purchaseId) ==> r.error == ExceedingPurchase
    ensures r.Ok? ==> Added(sells, id, FromInput(input), stamp, r.value)
    ensures r.Ok? ==> GetById(r.value, id).Ok? && GetById(r.value, id).value.purchase == input.purchaseId
  {
    var _ :- Drawing.Check(purchases, input.purchaseId, input.amount);
    Ok(Add(sells, id, FromInput(input), stamp))
  }

  /** `{ ...saved, ...dto }`, then the save: a NOT NULL column sent as null fails. */
  function Merge(s: Sell, patch: SellPatch): (r: Result<Sell>)
    ensures r.Err? <==> ClearsRequired(patch)
    ensures r.Err? ==> r.error == NotNullViolation
  {
    if ClearsRequired(patch) then Err(NotNullViolation)
    else Ok(Sell(Required(patch.name, s.name), Required(patch.price, s.price), Required(patch.amount, s.amount), Apply(patch.date, s.sellDate), patch.purchaseId))
  }

  /** `merged` is what the save stores: the named purchase, every field left out as stored, every
      field sent as null NULL, every other field the value sent. */
  ghost predicate Merged(stored: Sell, patch: SellPatch, merged: Sell)
  {
    && (patch.name.Keep? ==> merged.name == stored.name)
    && (patch.name.Set? ==> merged.name == patch.name.value)
    && (patch.price.Keep? ==> merged.price == stored.price)
    && (patch.price.Set? ==> merged.price == patch.price.value)
    && (patch.amount.Keep? ==> merged.amount == stored.amount)
    && (patch.amount.Set? ==> merged.amount == patch.amount.value)
    && (patch.date.Keep? ==> merged.sellDate == stored.sellDate)
    && (patch.date.Clear? ==> merged.sellDate == None)
    && (patch.date.Set? ==> merged.sellDate == Some(patch.date.value))
    && merged.purchase == patch.purchaseId
  }

  /** update: the sell must be live ("Sell Not Found!!" first), then the named purchase must be live;
      last the save refuses a NOT NULL column sent as null. The amount is not checked against the
      purchase again. */
  function Update(sells: Table<Sell>, purchases: Drawing.Purchases, id: Id, patch: SellPatch): (r: Result<Table<Sell>>)
    ensures r.Ok? <==> Live(sells, id) && Live(purchases, patch.purchaseId) && !ClearsRequired(patch)
    ensures r.Err? && !Live(sells, id) ==> r.error == NotFound(NotFoundMessage)
    ensures r.Err? && Live(sells, id) && !Live(purchases, patch.purchaseId) ==>
      r.error == NotFound(PurchaseService.NotFoundMessage)
    ensures r.Err? && Live(sells, id) && Live(purchases, patch.purchaseId) ==> r.error == NotNullViolation
    ensures r.Ok? ==> Replaced(sells, id, Merge(sells[id].data, patch).value, r.value)
    ensures r.Ok? ==> GetById(r.value, id).Ok? && Merged(sells[id].data, patch, GetById(r.value, id).value)
  {
    var saved :- GetById(sells, id);
    var _ :- PurchaseService.GetById(purchases, patch.purchaseId);
    var merged :- Merge(saved, patch);
    Ok(Put(sells, id, merged))
  }

  /** remove: a soft delete of a live sell; afterwards it is no longer found. */
  function Remove(sells: Table<Sell>, id: Id): (r: Result<Table<Sell>>)
    ensures r.Ok? <==> Live(sells, id)
    ensures r.Err? ==> r.error == NotFound(NotFoundMessage)
    ensures r.Ok? ==> SoftDeleted(sells, id, r.value) && GetById(r.value, id).Err?
  {
    SoftDelete(sells, id, NotFoundMessage)
  }

  /** The guard does not look at earlier sells: whatever the sells table holds, the same request gets the same verdict. */
  lemma CreateIgnoresEarlierSells(sells1: Table<Sell>, sells2: Table<Sell>, purchases: Drawing.Purchases,
                                  id: Id, input: SellInput, stamp: int)
    requires id !in sells1 && id !in sells2
    ensures Create(sells1, purchases, id, input, stamp).Ok? == Create(sells2, purchases, id, input, stamp).Ok?
  {
  }

  const Wheat: PurchaseService.Purchase := PurchaseService.Purchase("Wheat", 10.0, 50.0, None)

  const OnePurchase: Drawing.Purchases := map["p" := Row(Wheat, true, 0, 0)]

  /** Two sells of the whole purchase both pass: together they draw twice what was bought. */
  lemma TwoFullSellsPass()
    ensures var first := Create(map[], OnePurchase, "s1", SellInput("Flour", 60.0, 10.0, 1, "p"), 1);
      && first.Ok?
      && var second := Create(first.value, OnePurchase, "s2", SellInput("Flour", 60.0, 10.0, 2, "p"), 2);
      && second.Ok?
      && second.value["s1"].data.amount + second.value["s2"].data.amount == 2.0 * Wheat.amount
  {
  }

  /** An update may raise a sell's amount past its purchase: the guard only runs on create. */
  lemma UpdateCanExceedPurchase()
    ensures var sells := map["s" := Row(Sell("Flour", 60.0, 5.0, None, "p"), true, 0, 0)];
      var r := Update(sells, OnePurchase, "s", SellPatch(Keep, Keep, Set(50.0), Keep, "p"));
      && r.Ok?
      && !Drawing.Allows(OnePurchase, r.value["s"].data.purchase, r.value["s"].data.amount)
  {
  }
}

=== FILE: seller.dfy ===
/** SellerService: sellers, the contact book next to purchases. */
module SellerService {
  import opened Outcomes
  import opened Store
  import opened Contacts
  import Listing

  const NotFoundMessage: string := "Seller Not Found!!"

  /** getSellerById / findById: only a live seller is found. */
  function GetById(sellers: Table<Contact>, id: Id): (r: Result<Contact>)
    ensures r.Ok? <==> Live(sellers, id)
    ensures r.Ok? ==> r.value == sellers[id].data
    ensures r.Err? ==> r.error == NotFound(NotFoundMessage)
  {
    Get(sellers, id, NotFoundMessage)
  }

  /** findAll: every live seller, once each. */
  function FindAll(sellers: Table<Contact>, scan: seq<Id>): (rows: seq<Entry<Contact>>)
    requires IsScan(sellers, scan)
    ensures forall e :: e in rows ==> Live(sellers, e.id) && e.row == sellers[e.id]
    ensures forall id :: Live(sellers, id) ==> Entry(id, sellers[id]) in rows
    ensures |rows| == |LiveIds(sellers)|
  {
    Store.FindAll(sellers, scan)
  }

  /** pagination: filtered by the three search boxes, never fails. */
  function Pagination(sellers: Table<Contact>, scan: seq<Id>, page: int, limit: int,
                      sort: Option<string>, order: Option<string>, search: ContactSearch): (p: Listing.Page<Contact>)
    requires page >= 1 && limit >= 1 && IsScan(sellers, scan)
    ensures Listing.IsListing(Contacts.Kind, sellers, scan, Filter(search), page, limit, sort, order, p)
  {
    List(sellers, scan, page, limit, sort, order, search)
  }

  /** create: a new live seller holding exactly the submitted fields. */
  function Create(sellers: Table<Contact>, id: Id, input: Contact, stamp: int): (t: Table<Contact>)
    requires id !in sellers
    ensures Added(sellers, id, input, stamp, t)
    ensures GetById(t, id) == Ok(input)
  {
    Add(sellers, id, input, stamp)
  }

  /** update: only a live seller, and not with a null name; fields sent replace or clear the stored ones. */
  function Update(sellers: Table<Contact>, id: Id, patch: ContactPatch): (r: Result<Table<Contact>>)
    ensures r.Ok? <==> Live(sellers, id) && !patch.name.Clear?
    ensures r.Err? && !Live(sellers, id) ==> r.error == NotFound(NotFoundMessage)
    ensures r.Err? && Live(sellers, id) ==> r.error == NotNullViolation
    ensures r.Ok? ==> Replaced(sellers, id, Merge(sellers[id].data, patch).value, r.value)
    ensures r.Ok? ==> GetById(r.value, id).Ok? && Merged(sellers[id].data, patch, GetById(r.value, id).value)
  {
    Contacts.Update(sellers, id, patch, NotFoundMessage)
  }

  /** remove: a soft delete of a live seller; afterwards it is no longer found. */
  function Remove(sellers: Table<Contact>, id: Id): (r: Result<Table<Contact>>)
    ensures r.Ok? <==> Live(sellers, id)
    ensures r.Err? ==> r.error == NotFound(NotFoundMessage)
    ensures r.Ok? ==> SoftDeleted(sellers, id, r.value) && GetById(r.value, id).Err?
  {
    SoftDelete(sellers, id, NotFoundMessage)
  }
}

=== FILE: store.dfy ===
/** The keyed store every service works on, and the state machine the seven services share.

A table is a finite map from id to row; a row carries the record kind's own
columns, the `isActive` soft-delete flag and the audit stamps. Ids and stamps
are generated by the database: the model takes them as parameters. The order in
which the database returns rows is a parameter too, a `scan` that lists every
id of the table exactly once.
 */
module Store {
  import opened Outcomes

  type Id = string

  datatype Row<R> = Row(data: R, active: bool, createAt: int, updatedAt: int)

  type Table<R> = map<Id, Row<R>>

  /** A row as a listing returns it, together with its id. */
  datatype Entry<R> = Entry(id: Id, row: Row<R>)

  /** `id` names a stored row whose flag is ACTIVE. */
  predicate Live<R>(t: Table<R>, id: Id)
  {
    id in t && t[id].active
  }

  /** The ids of the live rows that `keep` accepts. */
  function Matches<R>(t: Table<R>, keep: R -> bool): set<Id>
  {
    set id | id in t && t[id].active && keep(t[id].data)
  }

  function Always<R>(r: R): bool
  {
    true
  }

  /** The ids of all live rows. */
  function LiveIds<R>(t: Table<R>): set<Id>
  {
    Matches(t, Always)
  }

  predicate Distinct(ids: seq<Id>)
  {
    forall i, j :: 0 <= i < j < |ids| ==> ids[i] != ids[j]
  }

  /** `scan` is an order in which the database may visit the rows of `t`: each id exactly once. */
  predicate IsScan<R>(t: Table<R>, scan: seq<Id>)
  {
    && Distinct(scan)
    && (forall id :: id in t ==> id in scan)
    && (forall id :: id in scan ==> id in t)
  }

  /** `e` is a live row of `t`, exactly as stored, and `keep` accepts it. */
  ghost predicate Listed<R>(t: Table<R>, e: Entry<R>, keep: R -> bool)
  {
    Live(t, e.id) && e.row == t[e.id] && keep(e.row.data)
  }

  /** `t2` is `t` plus one new live row `id` holding `data`, stamped `stamp`; nothing else changes. */
  ghost predicate Added<R>(t: Table<R>, id: Id, data: R, stamp: int, t2: Table<R>)
  {
    && id !in t
    && t2.Keys == t.Keys + {id}
    && t2[id] == Row(data, true, stamp, stamp)
    && forall k :: k in t ==> t2[k] == t[k]
  }

  /** `t2` is `t` with the columns of row `id` replaced by `data`; its flag, its stamps and every other row are kept. */
  ghost predicate Replaced<R>(t: Table<R>, id: Id, data: R, t2: Table<R>)
  {
    && id in t
    && t2.Keys == t.Keys
    && t2[id] == t[id].(data := data)
    && forall k :: k in t && k != id ==> t2[k] == t[k]
  }

  /** `t2` is `t` with only the flag of row `id` turned to INACTIVE. */
  ghost predicate SoftDeleted<R>(t: Table<R>, id: Id, t2: Table<R>)
  {
    && id in t
    && t2.Keys == t.Keys
    && t2[id] == t[id].(active := false)
    && forall k :: k in t && k != id ==> t2[k] == t[k]
  }

  /** The lookup every service runs first: the row with this id among the active ones, or not-found with the service's message. */
  function Get<R>(t: Table<R>, id: Id, message: string): (r: Result<R>)
    ensures r.Ok? <==> Live(t, id)
    ensures r.Ok? ==> r.value == t[id].data
    ensures r.Err? ==> r.error == NotFound(message)
  {
    if id in t && t[id].active then Ok(t[id].data) else Err(NotFound(message))
  }

  /** Create: a new row, active by default. */
  function Add<R>(t: Table<R>, id: Id, data: R, stamp: int): (t2: Table<R>)
    requires id !in t
    ensures Added(t, id, data, stamp, t2)
    ensures Get(t2, id, "") == Ok(data)
  {
    t[id := Row(data, true, stamp, stamp)]
  }

  /** Saving a merged record over an existing row: new columns, same id, same flag. */
  function Put<R>(t: Table<R>, id: Id, data: R): (t2: Table<R>)
    requires id in t
    ensures Replaced(t, id, data, t2)
    ensures Live(t2, id) == Live(t, id)
  {
    t[id := t[id].(data := data)]
  }

  /** Remove: look the id up among the live rows, then save it again with its flag turned to INACTIVE. */
  function SoftDelete<R>(t: Table<R>, id: Id, message: string): (r: Result<Table<R>>)
    ensures r.Ok? <==> Live(t, id)
    ensures r.Err? ==> r.error == NotFound(message)
    ensures r.Ok? ==> SoftDeleted(t, id, r.value)
    ensures r.Ok? ==> Get(r.value, id, message).Err? && LiveIds(r.value) == LiveIds(t) - {id}
  {
    var _ :- Get(t, id, message);
    Ok(t[id := t[id].(active := false)])
  }

  /** The rows of `scan`, in scan order, that are live and accepted by `keep` (the WHERE clause). */
  function Select<R>(t: Table<R>, scan: seq<Id>, keep: R -> bool): (rows: seq<Entry<R>>)
    ensures forall e :: e in rows ==> e.id in scan && Listed(t, e, keep)
    ensures forall id :: id in scan && Live(t, id) && keep(t[id].data) ==> Entry(id, t[id]) in rows
    decreases |scan|
  {
    if |scan| == 0 then []
    else
      var id := scan[0];
      var rest := Select(t, scan[1..], keep);
      assert forall k :: k in scan ==> k == id || k in scan[1..];
      if id in t && t[id].active && keep(t[id].data) then [Entry(id, t[id])] + rest else rest
  }

  /** Scanning two live rows that pass the filter selects both, in scan order. */
  lemma SelectTwo<R>(t: Table<R>, x: Id, y: Id, keep: R -> bool)
    requires Live(t, x) && Live(t, y) && keep(t[x].data) && keep(t[y].data)
    ensures Select(t, [x, y], keep) == [Entry(x, t[x]), Entry(y, t[y])]
  {
    assert [x, y][1..] == [y];
    assert Select(t, [y], keep) == [Entry(y, t[y])] by { assert [y][1..] == []; }
  }

  lemma TailDistinct(scan: seq<Id>)
    requires Distinct(scan) && |scan| > 0
    ensures Distinct(scan[1..]) && scan[0] !in scan[1..]
    ensures forall k :: k in scan <==> k == scan[0] || k in scan[1..]
  {
    assert scan == [scan[0]] + scan[1..];
    forall i, j | 0 <= i < j < |scan[1..]| ensures scan[1..][i] != scan[1..][j] {
      assert scan[1..][i] == scan[i + 1] && scan[1..][j] == scan[j + 1];
    }
  }

  /** The matching ids a scan visits. */
  function Scanned<R>(t: Table<R>, scan: seq<Id>, keep: R -> bool): set<Id>
  {
    set id | id in scan && Live(t, id) && keep(t[id].data)
  }

  lemma ScannedSplit<R>(t: Table<R>, scan: seq<Id>, keep: R -> bool)
    requires |scan| > 0
    ensures Live(t, scan[0]) && keep(t[scan[0]].data) ==>
      Scanned(t, scan, keep) == Scanned(t, scan[1..], keep) + {scan[0]}
    ensures !(Live(t, scan[0]) && keep(t[scan[0]].data)) ==>
      Scanned(t, scan, keep) == Scanned(t, scan[1..], keep)
  {
    assert forall k :: k in scan <==> k == scan[0] || k in scan[1..] by {
      assert scan == [scan[0]] + scan[1..];
    }
  }

  /** Selecting along a duplicate-free scan yields one row per matching id. */
  lemma {:induction false} SelectCount<R>(t: Table<R>, scan: seq<Id>, keep: R -> bool)
    requires Distinct(scan)
    ensures |Select(t, scan, keep)| == |Scanned(t, scan, keep)|
    decreases |scan|
  {
    if |scan| > 0 {
      TailDistinct(scan);
      SelectCount(t, scan[1..], keep);
      ScannedSplit(t, scan, keep);
      assert scan[0] !in Scanned(t, scan[1..], keep);
    }
  }

  /** The number of rows a full scan selects is the number of matching live ids: the COUNT of the query. */
  lemma CountSelected<R>(t: Table<R>, scan: seq<Id>, keep: R -> bool)
    requires IsScan(t, scan)
    ensures |Select(t, scan, keep)| == |Matches(t, keep)|
  {
    SelectCount(t, scan, keep);
    assert Scanned(t, scan, keep) == Matches(t, keep);
  }

  /** A selection never lists the same id twice. */
  lemma {:induction false} SelectDistinct<R>(t: Table<R>, scan: seq<Id>, keep: R -> bool)
    requires Distinct(scan)
    ensures forall i, j :: 0 <= i < j < |Select(t, scan, keep)| ==>
      Select(t, scan, keep)[i].id != Select(t, scan, keep)[j].id
    decreases |scan|
  {
    if |scan| > 0 {
      TailDistinct(scan);
      SelectDistinct(t, scan[1..], keep);
    }
  }

  /** findAll: `find({ where: { isActive: ACTIVE } })` — exactly the live rows, each once. */
  function FindAll<R>(t: Table<R>, scan: seq<Id>): (rows: seq<Entry<R>>)
    requires IsScan(t, scan)
    ensures forall e :: e in rows ==> Live(t, e.id) && e.row == t[e.id]
    ensures forall id :: Live(t, id) ==> Entry(id, t[id]) in rows
    ensures |rows| == |LiveIds(t)|
  {
    CountSelected(t, scan, Always);
    Select(t, scan, Always)
  }
  /** A soft delete takes the row out of every listing and leaves the others in. */
  lemma SoftDeleteUnlists<R>(t: Table<R>, id: Id, t2: Table<R>, keep: R -> bool)
    requires SoftDeleted(t, id, t2)
    ensures Matches(t2, keep) == Matches(t, keep) - {id}
  {
  }

  /** A new row is counted by exactly the listings whose filter accepts it. */
  lemma AddLists<R>(t: Table<R>, id: Id, data: R, stamp: int, t2: Table<R>, keep: R -> bool)
    requires Added(t, id, data, stamp, t2)
    ensures keep(data) ==> Matches(t2, keep) == Matches(t, keep) + {id}
    ensures !keep(data) ==> Matches(t2, keep) == Matches(t, keep)
  {
  }

  /** Replacing the columns of a live row keeps it live; it is listed exactly when the filter accepts the new columns. */
  lemma PutRelists<R>(t: Table<R>, id: Id, data: R, t2: Table<R>, keep: R -> bool)
    requires Replaced(t, id, data, t2) && Live(t, id)
    ensures keep(data) ==> Matches(t2, keep) == Matches(t, keep) + {id}
    ensures !keep(data) ==> Matches(t2, keep) == Matches(t, keep) - {id}
  {
  }
}

=== FILE: text.dfy ===
/** The text side of the search filters: ASCII lower-casing and substring search.

Every search box is built as `andWhere('lower(<table>.<column>) like :p', { p:
'%' + search.toLowerCase() + '%' })`. Wildcard characters typed by the user and
Unicode case folding are not modelled: the pattern is read as a plain substring
test over ASCII lower-case text.
 */
module Text {
  import opened Outcomes

  function LowerChar(c: char): char
  {
    if 'A' <= c <= 'Z' then (c as int + 32) as char else c
  }

  predicate IsUpper(c: char)
  {
    'A' <= c <= 'Z'
  }

  /** `toLowerCase()` / SQL `lower()` restricted to ASCII letters. */
  function Lower(s: string): (r: string)
    ensures |r| == |s|
    ensures forall i :: 0 <= i < |s| ==> r[i] == LowerChar(s[i])
    ensures forall i :: 0 <= i < |r| ==> !IsUpper(r[i])
    decreases |s|
  {
    if |s| == 0 then "" else [LowerChar(s[0])] + Lower(s[1..])
  }

  /** Lower-casing twice is lower-casing once. */
  lemma LowerIdempotent(s: string)
    ensures Lower(Lower(s)) == Lower(s)
  {
    assert forall i :: 0 <= i < |s| ==> Lower(Lower(s))[i] == Lower(s)[i];
  }

  predicate IsPrefix(p: string, s: string)
  {
    |p| <= |s| && p == s[..|p|]
  }

  /** `hay LIKE '%needle%'` for a needle without wildcards: scan `hay` for a start position of `needle`. */
  predicate Contains(hay: string, needle: string)
    decreases |hay|
  {
    IsPrefix(needle, hay) || (|hay| > 0 && Contains(hay[1..], needle))
  }

  /** A copy of `needle` starts at position `i` of `hay`. */
  predicate OccursAt(hay: string, needle: string, i: int)
  {
    0 <= i && i + |needle| <= |hay| && hay[i..i + |needle|] == needle
  }

  /** Reference meaning of substring containment. */
  ghost predicate Occurs(hay: string, needle: string)
  {
    exists i :: OccursAt(hay, needle, i)
  }

  /** The scanning definition agrees with the reference one, in both directions. */
  lemma {:induction false} ContainsIffOccurs(hay: string, needle: string)
    ensures Contains(hay, needle) <==> Occurs(hay, needle)
    decreases |hay|
  {
    if IsPrefix(needle, hay) {
      assert OccursAt(hay, needle, 0);
    } else if |hay| > 0 {
      ContainsIffOccurs(hay[1..], needle);
      if Occurs(hay[1..], needle) {
        var i :| OccursAt(hay[1..], needle, i);
        assert hay[1..][i..i + |needle|] == hay[i + 1..i + 1 + |needle|];
        assert OccursAt(hay, needle, i + 1);
      }
      if Occurs(hay, needle) {
        var i :| OccursAt(hay, needle, i);
        assert hay[1..][i - 1..i - 1 + |needle|] == hay[i..i + |needle|];
        assert OccursAt(hay[1..], needle, i - 1);
      }
    }
  }

  /** A search box is in force only when its text is present and non-empty (JavaScript treats both as falsy). */
  predicate Applies(search: Option<string>)
  {
    search.Some? && |search.value| > 0
  }

  /** One search box. A row passes when the box is not in force, or when its column is not NULL
      and the lower-cased column contains the lower-cased search text; `lower(NULL) like …` is
      not true, so a NULL column never passes a box in force. */
  predicate TextFilter(column: Option<string>, search: Option<string>)
  {
    !Applies(search) || (column.Some? && Contains(Lower(column.value), Lower(search.value)))
  }

  /** What a search box keeps: an absent or empty search keeps every row; otherwise a row is kept
      exactly when its lower-cased column has the lower-cased search text at some position. */
  lemma TextFilterMeaning(column: Option<string>, search: Option<string>)
    ensures !Applies(search) ==> TextFilter(column, search)
    ensures Applies(search) ==>
      (TextFilter(column, search) <==>
       column.Some? && Occurs(Lower(column.value), Lower(search.value)))
  {
    if Applies(search) && column.Some? {
      ContainsIffOccurs(Lower(column.value), Lower(search.value));
    }
  }

  /** The filter ignores case on both sides: lower-casing the column or the search text first changes nothing. */
  lemma TextFilterIgnoresCase(column: string, search: string)
    ensures TextFilter(Some(column), Some(search)) == TextFilter(Some(Lower(column)), Some(Lower(search)))
  {
    LowerIdempotent(column);
    LowerIdempotent(search);
  }
}
